=== FILE: README.md ===
# Credit-metered number lookup bot, in Dafny

This project models the core of a Telegram bot and its admin panel. The bot is a
number-lookup service paid in credits:

- A user registers with `/start` and receives 10 credits. A valid referral code
  `REF<id>` of an existing user raises that to 15 and pays the referrer 5.
- The user presses "Enter 10 Digit Number" and sends a ten-digit number. One
  credit is debited and an external lookup service is queried.
- Up to five result cards are shown. A failed lookup is refunded.
- The results of a search that the user has not stored before are written to
  the search history, one row per search. The program decides "stored
  before" by a text search of the stored JSON; the model states the decision
  on decoded ids and shows, under Findings, where the two differ.
- The admin panel adds and sets credits, bans, unbans and deletes users, and
  broadcasts a message to every user.
- The admin panel also pages through the users and through the history,
  flattening each stored batch into one table entry per result.

The tables are immutable Dafny values:
- users, a map keyed by telegram id;
- referral pairs, a set;
- history rows, a sequence in insertion order.

The in-memory `userStates` map is the set of users awaiting a number. Every
handler is a pure function from the tables, the message and the lookup
service's answer to the new tables and the list of replies. The answer is a
parameter, and so is the clock (`now`).

Modules:
- `Values`: JavaScript scalars and truthiness, `String(v)`, UTF-16 lengths, substring containment.
- `Store`: the tables and the credit ledger.
- `Registration`: `registerUser` and referral codes.
- `Gateway`: the lookup service's answers and the result cards.
- `Dedup`: the history writer, stated on decoded ids.
- `JsonText`: the stored JSON text and the text match the writer actually performs.
- `Conversation`: the message handler.
- `Admin`: the admin panel's write actions.
- `HistoryView`: flattening and pagination.
- `System`: all events together and the invariants they keep.

## Model

| member | source | states |
|---|---|---|
| Registration.ReferralCodeFor | bot.js:111-113 | a user's code is "REF" followed by their id, so the id can be read back from the code |
| Registration.ReferralCodeInjective | bot.js:111-113 | two users never get the same referral code |
| Registration.FindReferrer | bot.js:144-149 | only a code starting with "REF" names a referrer, that referrer is a registered user whose stored code is the given code, and when every stored code is its owner's generated code, any user holding the code is found |
| Registration.GrantReferral | bot.js:150-159 | the referrer gains exactly 5 credits and one referral and nothing else of their record changes; no other user changes and no user is added or removed; exactly the pair (referrer, newcomer) joins the referral rows |
| Registration.RegisterUser | bot.js:116-179 | a returning user only has the profile (empty names stored as null) and last-active time refreshed, with nothing reported as new; a new user gets 10 credits, or 15 with a valid referral, their generated code, the referrer as `referred_by`, and a bonus of 5 or 0; only the referrer, if any, is paid, and no other user changes |
| Registration.RegisterPreservesLedger | bot.js:116-179 | registration keeps every balance non-negative and every referral code equal to its owner's generated code |
| Registration.RegisterTwicePaysOnce | bot.js:119-136 | a second `/start` by the same user changes no balance, referral count, `referred_by` or referral row |
| Registration.ReferralScenario | bot.js:144-177 | registering with an existing user's code gives the newcomer 15 credits and that user as referrer, gives the referrer 5 credits and one more referral, adds only the row (referrer, newcomer), and, when that pair is new, raises the referrer's referral earnings by exactly 5 |
| Store.TryDebit | bot.js:561-574 | the debit happens exactly when the balance (0 for an unregistered user) is at least 1; it lowers that user's balance by exactly 1, touches nothing else and keeps balances non-negative |
| Store.Credit | bot.js:695 | the balance of the named user moves by the amount, an unknown id changes nothing, and no other record or table changes |
| Store.Touch | bot.js:453-458 | only the sender's last-active time changes, to the message's time; an unknown id changes nothing; no balance, referral or history row changes |
| Store.ReferralEarnings | bot.js:386-389 | referral earnings are a multiple of 5 and are 0 exactly when the user referred nobody |
| Store.ReferralEarningsAdd | bot.js:156 | each referral row earns its referrer 5: one more row of a referrer raises their earnings by exactly 5 and leaves every other user's earnings as they were |
| Gateway.Classify | bot.js:586-590 | results are shown exactly when the answer is successful and its result list is non-empty; a rejected call or a missing body goes to the failure handler; a non-empty string result is announced and then fails |
| Gateway.AddressLine | bot.js:610 | a present address shows its longest prefix of at most 100 UTF-16 units (no further character fits) followed by "...", the whole address when it fits, and "N/A" when it is absent |
| Values.Utf16Prefix | bot.js:610 | the kept prefix is a prefix of the text, at most the given number of UTF-16 units long, and the next character, if any, would not fit |
| Gateway.RenderCardShows | bot.js:603-613 | a card carries its position, and each of name, father, mobile, alt mobile, circle and id number as the value's text when truthy and "N/A" otherwise; a present address shows a prefix of it followed by "..." |
| Gateway.FirstShown | bot.js:600 | the shown results are the first five, or all of them when there are fewer |
| Gateway.RenderCards | bot.js:602-618 | results get cards in order, numbered from the first position, until the first result whose address is truthy but not text; that result and the ones after it get no card |
| Gateway.ShowResults | bot.js:600-618 | at most the first five results get a card, numbered from 1, and rendering stops exactly when one of those five cannot be rendered |
| Conversation.ReferralReply | bot.js:377-418 | an unregistered user is asked to register; a registered one sees their code, referral count, referral earnings and balance |
| Conversation.WalletReply | bot.js:496-540 | an unregistered user is asked to register; a registered one sees balance, referrals and earnings, with the status active exactly when the balance is positive |
| Conversation.React | bot.js:586-704 | the credit is kept exactly when the lookup answered with nothing, or answered with results that all render; a failed call replies only with the unavailable notice; a string result replies with its count and then the unavailable notice; nothing found replies with the no-information notice; a fault replies with the count, the cards rendered before it and the unavailable notice |
| Conversation.AnswerFound | bot.js:592-633 | a successful lookup replies with the count, one card per shown result in order, the notice of n-5 more when there are over five (or that all were shown), and the balance left |
| Conversation.Search | bot.js:556-704 | too few credits: only the notice and no change; otherwise "searching" first and then the answer to the lookup's outcome: the not-found notice, the full answer, or the cards rendered before a fault followed by the unavailable notice; the balance lowered by exactly 1 when the lookup answered and nothing threw, and refunded otherwise, which restores the tables exactly; a search that keeps its credit and has results writes its new results through the history writer on the debited tables, and every other search leaves the history as it was; balances stay non-negative and the history invariant holds |
| Conversation.RefundRestores | bot.js:690-699 | giving back the one debited credit restores the tables exactly as they were before the search |
| Conversation.TenDigitsIsPlain | bot.js:377-556 | a ten-digit number is never a referral word, a command or a button, so it always reaches the number handler |
| Conversation.OnMessage | bot.js:357-734 | the referral shortcut answers even a banned user with the referral card (or the request to register) and changes nothing; a command is left alone; a banned user gets only the ban notice (with the reason when set); otherwise the sender waits afterwards exactly when they pressed the number button, or were waiting and neither cancelled nor sent ten digits; a credit is taken exactly for a covered, answered search request; no other user changes; the history changes only for a search request, and a search request stops the sender waiting and updates and answers exactly as the search on the touched tables, so a successful one stores its new results; invalid input while waiting replies with the input and its length and touches no balance; each of the five buttons gets its one fixed reply (the number prompt, the help and about pointers, the wallet card on the touched tables, the cancel notice); any other text from a user who is not waiting only marks them active and gets no reply |
| Conversation.OnMessageKeepsInvariants | bot.js:357-734 | no message drives a balance below zero or lets two rows of one user hold the same result id |
| Dedup.NewResults | bot.js:636-660 | the kept results are the response's results in order; a result without an id is always kept; a result with an id is dropped exactly when an earlier row of the same user holds that id; duplicates within one response are both kept |
| Dedup.NewResultsAppend | bot.js:639-660 | filtering a response split in two is filtering each half, so the kept list is the in-order filter of the response |
| Dedup.AppendIfNew | bot.js:662-678 | exactly one row holding the kept results is appended when something is new and the write succeeds; otherwise nothing changes; users and referrals never change |
| Dedup.AppendKeepsFresh | bot.js:636-679 | after the write, no user's history holds the same result id in two rows |
| Dedup.RepeatStoresOnlyUnidentified | bot.js:636-679 | after a stored search, the same response again keeps only results without an id |
| Dedup.RepeatedSearchScenario | bot.js:636-679 | a response with an id-7 result and one without an id is stored whole the first time, and the second time only the one without an id is stored |
| JsonText.NewResultsAsWritten | bot.js:640-658 | the program's loop: a result is kept exactly when it has no truthy id or the text match finds no earlier row of the user holding its id, and the kept results keep the response's order |
| JsonText.AsWrittenAppend | bot.js:640-658 | the loop walks the response in order: filtering a response laid end to end is filtering each part in turn, so each result is judged only against the rows stored before the search, and a repeat within the response does not drop its twin |
| JsonText.AsWrittenAgrees | bot.js:640-658 | on every response whose truthy ids the text match finds exactly when an earlier row holds them, the loop as written keeps the same results, in the same order, as the check on decoded ids |
| JsonText.EscapeCharSpec | bot.js:669 | `JSON.stringify` writes a plain character as itself and a quote, backslash or control character as an escape starting with a backslash |
| JsonText.EscapeCharInjective | bot.js:669 | no two characters are escaped alike, so the stored text determines the characters it was written from |
| JsonText.ObjectTextSpec | bot.js:669 | a result is written between braces, holding each field's `"key":value` text, with every field but the last followed by a comma |
| JsonText.StoredTextSpec | bot.js:669 | the stored text of a written batch is an array between brackets holding each result's text; a blank row is empty, and a row the bot did not write reads as its own text |
| JsonText.NumericIdBeforeLastKeyIsMatched | bot.js:648-651 | the text match finds a numeric id that is not the last key of its stored object |
| JsonText.LastKeyIdStoredAgain | bot.js:648-651 | a stored object whose numeric id is its last key is not found by the text match, so the same result is stored again |
| JsonText.StringIdStoredAgain | bot.js:648-651 | the string id "A7", stored quoted, is not found by the unquoted text match, so the same result is stored again |
| JsonText.StringSevenDropped | bot.js:648-651 | the string id "7" is found by the text match in a row that holds only the numeric id 7 before another key, so a result that was never stored is dropped |
| Admin.AddCredits | admin.js:245-258 | the request is refused exactly for a missing id, a missing count or a count below 1; otherwise the user's balance grows by exactly the count, an unknown id changes nothing, and balances stay non-negative |
| Admin.SetCredits | admin.js:261-274 | the request is refused exactly for a missing id or a negative count; otherwise the user's balance becomes exactly the count; nothing else changes |
| Admin.Ban | admin.js:360-380 | the request is refused exactly without an id; the user is marked banned now, with the reason or null when it is empty; only that user's ban fields change |
| Admin.Unban | admin.js:383-403 | the request is refused exactly without an id; the ban flag, time and reason are cleared; only that user's ban fields change |
| Admin.BanThenUnban | admin.js:360-403 | banning and then unbanning a user who was not banned restores the tables exactly |
| Admin.RowsWithout | admin.js:415 | the remaining rows are exactly the other users' rows, in their original order, each as often as before |
| Admin.DeleteUser | admin.js:406-427 | the request is refused exactly without an id; the user, every referral row naming them on either side and every history row of theirs are removed; the other history rows keep their order and multiplicity, and everything else stays |
| Admin.DeletePreservesInvariants | admin.js:406-427 | deletion keeps balances non-negative, referral codes canonical and the history invariant |
| Admin.TrimEmptyIffBlank | admin.js:298 | `trim()` leaves nothing exactly when every character of the message is ECMAScript white space or a line terminator |
| Admin.EmptyMessageGuard | admin.js:298 | the empty-message guard holds exactly for a message that is all white space, the empty message included |
| Admin.Broadcast | admin.js:295-357 | an empty or all-white-space message is refused, then one over 4000 UTF-16 units, then an empty user table; otherwise every user is sent to once, successful sends are exactly the delivered users and successful + failed = total users |
| HistoryView.EntriesOf | admin.js:196-212 | one entry per stored element in order, each carrying its row's columns, stopping at the first null element, whose read throws, with the entries before it kept |
| HistoryView.Read | admin.js:202-210 | a field of an object element is its stored value when that is truthy, and null otherwise; every field of a non-object element is null |
| HistoryView.FlattenRow | admin.js:186-217 | an empty or undecodable payload contributes nothing; an array contributes its elements' entries up to the first null element; every entry carries its row's id, user, number and time |
| HistoryView.Flatten | admin.js:184-217 | every entry comes from one of the rows on the page, every entry of every row on the page appears, whatever the other rows hold, and one row flattens to its own entries |
| HistoryView.FlattenAppend | admin.js:184-217 | flattening rows laid end to end is flattening each part in turn, so the page's entries are its rows' entries, row after row |
| HistoryView.WrittenRowFlattens | admin.js:196-212 | a row the bot wrote shows each stored result as one entry, in order, with its id (or null) |
| HistoryView.PageNumber | admin.js:126 | a missing, unparsable or zero page number becomes 1; any other is kept |
| HistoryView.Page | admin.js:130-134 | a page holds at most the page size, and is the slice of the listing from the offset up to the page size further or the end, or nothing past the end |
| HistoryView.Offset | admin.js:128 | the offset is (page - 1) times the page size, and 0 for a page below 1 |
| HistoryView.TotalPages | admin.js:136 | the page count is the fewest pages of the page size that hold every row |
| HistoryView.PagesPartition | admin.js:126-137 | pages 1 to the page count laid end to end are exactly the listing, and every later page is empty |
| HistoryView.Newest | admin.js:179 | the history listed newest first is the stored rows in reverse insertion order |
| HistoryView.NewestLatestFirst | admin.js:179 | rows stored in time order are listed with non-increasing search times, as `ORDER BY searched_at DESC` lists them |
| HistoryView.NewestTwice | admin.js:179 | reversing the newest-first listing gives back the stored rows, so the listing loses and repeats nothing |
| HistoryView.UsersPage | admin.js:125-145 | given the users table listed newest registration first, a `/users` page is the users of that listing from the page's offset, at most 20, or nothing past the end; the page count is the fewest pages of 20 covering every user of the table |
| HistoryView.HistoryPage | admin.js:172-228 | a `/history` page flattens stored rows only, namely the slice of the newest-first rows from the page's offset, at most 50, or nothing past the end; the page count is over rows |
| System.ApplyKeepsValid | bot.js:116-734 | registration, a message and every admin action (adding and setting credits, ban, unban and delete at admin.js:245-274 and admin.js:360-427) keep balances non-negative, referral codes canonical and the history invariant |
| System.RunKeepsValid | admin.js:245-427 | any sequence of bot and admin events starting from valid tables ends in valid tables |

## Left out

- Telegram, HTTP and Express I/O are parameters or absent. Replies are tags carrying the data they show, with no wording, Markdown or keyboards. The lookup service's answer and the broadcast's per-user delivery are parameters.
- Console output is left out, because it does not affect behaviour. The debug-log writes are left out, and they are assumed to succeed. The write at bot.js:370 runs before any dispatch and outside any `try`. If it fails, the handler stops with no reply, no last-active update and no search. If the write at bot.js:416 fails after the referral card was sent, the `catch` also sends the referral error reply. Neither failure is modelled.
- The lookup is assumed to answer or fail: every `Response` is an answer or a rejection. `axios.get` at bot.js:586 sets no timeout, so a call that never settles keeps the debited credit and sends nothing after the searching notice.
- The schema creation and column migrations are left out; the tables are abstract collections.
- Admin login, sessions, password hashing and password change are left out, as are the dashboard, search, settings and broadcast-page reads. They are library wrappers or read-only text.
- The static `/help`, `/about`, `/menu` and inline-keyboard handlers are left out, because they are fixed text.
- The `/refer` and `/start` command handlers are left out except for `registerUser`. The message handler leaves commands to those handlers, except a command that mentions Refer, Earn or the gift emoji: the referral shortcut runs before the command check and answers it, as the model does.
- Statistics over `DATE('now')` are left out, because they are read-only and depend on the wall clock.
- Concurrency is not modelled. Each message is one atomic step, including the asynchronous lookup. A message arriving between the debit and the lookup's answer is not modelled.
- Database errors are not modelled, except for a failure of the history write, which is swallowed (`writable`).
- Admin.AddCredits: takes the count as an integer. JavaScript coercion of a form field (`"1.5"` passing the guard and `parseInt` truncating it, or a non-numeric text producing NaN) is not modelled. A count such as `"-5x"` passes the guard, because `"-5x" < 1` compares NaN and is false, and `parseInt` makes it -5, so the program can make a balance negative. The model's non-negativity, here and in System.ApplyKeepsValid and System.RunKeepsValid, covers integer counts only.
- Admin.SetCredits: takes the count as an integer. A missing or non-numeric field, which the guard lets through and `parseInt` turns into NaN (stored as NULL), is not modelled. A count such as `"-5x"` passes the guard, because `"-5x" < 0` compares NaN and is false, and `parseInt` makes it -5, so the program can set a balance to -5. The model's non-negativity, here and in System.ApplyKeepsValid and System.RunKeepsValid, covers integer counts only.
- Admin.Broadcast: the 50 ms delay between sends and the admin username in the logged row are not modelled. Users are sent to in some order, which the tally does not depend on.
- JsonText.LikeSeen: SQLite's LIKE is case-insensitive for ASCII letters, and `%` and `_` inside an id act as wildcards. Neither is modelled, because both only widen the mismatch shown under Findings.
- Result values are scalars (null, boolean, integer, string). Nested objects and arrays, floating-point numbers, and results that are not objects in the lookup's answer are not modelled.
- Gateway.AddressLine: cutting an address of more than 100 units in the middle of a surrogate pair keeps half the pair in JavaScript. The model keeps whole characters only.
- HistoryView.HistoryPage: rows are ordered newest first by insertion. SQLite's order between rows with the same second-resolution timestamp is unspecified. The `/users` listing order (by registration time) is a parameter.
- Deleting a user leaves the `referred_by` fields and referral counts of other users as they were, as the source does.
- `clear_history.js` (one unconditional delete of all history) is not part of this model.
- Registration.FindReferrer looks the code up by inverting "REF" + id. This agrees with the source's lookup by stored code whenever every code is its owner's generated code, which System.RunKeepsValid proves is always the case.
- Two results with equal ids within one response are both stored, because every check is against rows stored before the search.
- Crediting or debiting an unknown telegram id is a silent no-op, not an error.
- Dedup.NewResults: decides "stored before" on decoded ids, not by the program's text match. Conversation.Search, Conversation.OnMessage and module System use this check, and the history invariant (`Dedup.FreshRows`) is the invariant of this writer. The program as written breaks it; module JsonText models the text match and Findings shows both directions of the difference.
- The message handler keys the ban check, the balance, the waiting state and the history by the chat id, while `registerUser` keys the user by the sender's id. The model uses one id for both, which holds in private chats; group chats, where the two differ, are not modelled.

## Findings

| source | as written | input that shows it | evidently intended | confidence | as-written member | corrected member |
|---|---|---|---|---|---|---|
| bot.js:648-651 | the duplicate check searches the stored JSON for the text `"id":<id>,` | a stored result `{"id":7}` whose id is its last key (no comma follows), or a string id such as `"A7"` (stored with quotes), is not found, so a repeated search stores it again | a result is dropped when an earlier row of the same user holds a result with an equal id | not executed | JsonText.LastKeyIdStoredAgain | Dedup.NewResults |
| bot.js:648-651 | the duplicate check compares the id's printed form only | a result with the string id `"7"`, when an earlier row holds `{"id":7,"name":"A"}`, is taken as stored and dropped, although no row holds it | a result is kept unless an earlier row of the same user holds a result with an equal id | not executed | JsonText.StringSevenDropped | Dedup.NewResults |

=== FILE: admin.dfy ===
/**
 * The admin panel's write actions on the bot's tables: adding and setting
 * credits, banning, unbanning and deleting a user, and the broadcast to every
 * user. An id field is a text; a missing one is the empty text, which is
 * falsy like a missing one.
 */
module Admin {
  import opened Values
  import opened Store
  import opened Registration
  import opened Dedup

  /** Why a request was refused before touching the database. */
  datatype Refusal = InvalidInput | IdRequired

  /** The JSON answer: `success: true`, or `success: false` with the reason. */
  datatype Answer = Done | Refused(why: Refusal)

  datatype Action = Action(store: Store, answer: Answer)

  /**
   * `/add-credits`: refused without an id, without a credit count, or with a
   * count below 1; otherwise the user's balance grows by the count. The
   * update matches no row for an unknown id and still reports success.
   */
  function AddCredits(s: Store, id: UserId, credits: Option<int>): (r: Action)
    ensures r.answer.Refused? <==> id == "" || credits.None? || credits.value < 1
    ensures r.answer.Refused? ==> r.store == s && r.answer.why == InvalidInput
    ensures r.answer.Done? ==> LedgerMove(s, r.store, id, credits.value)
    ensures r.answer.Done? && id in s.users ==> r.store.users[id].lastActive == s.users[id].lastActive
    ensures r.answer.Done? ==> BalanceOf(r.store, id) > BalanceOf(s, id) || id !in s.users
    ensures BalancesNonNegative(s) ==> BalancesNonNegative(r.store)
  {
    if id == "" || credits.None? || credits.value < 1 then Action(s, Refused(InvalidInput))
    else Action(Credit(s, id, credits.value), Done)
  }

  /**
   * `/set-credits`: refused without an id or with a negative count; otherwise
   * the user's balance becomes the count (0 included).
   */
  function SetCredits(s: Store, id: UserId, credits: int): (r: Action)
    ensures r.answer.Refused? <==> id == "" || credits < 0
    ensures r.answer.Refused? ==> r.store == s && r.answer.why == InvalidInput
    ensures r.answer.Done? ==> LedgerMove(s, r.store, id, credits - BalanceOf(s, id))
    ensures r.answer.Done? && id in s.users ==> r.store.users[id].balance == credits
                                                && r.store.users[id].lastActive == s.users[id].lastActive
    ensures BalancesNonNegative(s) ==> BalancesNonNegative(r.store)
  {
    if id == "" || credits < 0 then Action(s, Refused(InvalidInput))
    else if id in s.users then Action(s.(users := s.users[id := s.users[id].(balance := credits)]), Done)
    else Action(s, Done)
  }

  /** Only the user `id`'s ban fields may differ between `s` and `s'`. */
  predicate BanFieldsOnly(s: Store, s': Store, id: UserId) {
    && s'.users.Keys == s.users.Keys
    && s'.referrals == s.referrals
    && s'.history == s.history
    && s'.nextRowId == s.nextRowId
    && (forall u :: u in s.users && u != id ==> s'.users[u] == s.users[u])
    && (id in s.users ==> s'.users[id] == s.users[id].(isBanned := s'.users[id].isBanned,
                                                        bannedAt := s'.users[id].bannedAt,
                                                        bannedReason := s'.users[id].bannedReason))
  }

  /** `/ban-user`: marks the user banned now, with the reason, or none when it is missing or empty. */
  function Ban(s: Store, id: UserId, reason: Option<string>, now: int): (r: Action)
    ensures r.answer.Refused? <==> id == ""
    ensures r.answer.Refused? ==> r.store == s && r.answer.why == IdRequired
    ensures BanFieldsOnly(s, r.store, id)
    ensures r.answer.Done? && id in s.users ==>
              && r.store.users[id].isBanned
              && r.store.users[id].bannedAt == Some(now)
              && r.store.users[id].bannedReason == Nullify(reason)
  {
    if id == "" then Action(s, Refused(IdRequired))
    else if id in s.users then
      Action(s.(users := s.users[id := s.users[id].(isBanned := true, bannedAt := Some(now), bannedReason := Nullify(reason))]), Done)
    else Action(s, Done)
  }

  /** `/unban-user`: clears the ban flag, its time and its reason. */
  function Unban(s: Store, id: UserId): (r: Action)
    ensures r.answer.Refused? <==> id == ""
    ensures r.answer.Refused? ==> r.store == s && r.answer.why == IdRequired
    ensures BanFieldsOnly(s, r.store, id)
    ensures r.answer.Done? && id in s.users ==>
              !r.store.users[id].isBanned && r.store.users[id].bannedAt.None? && r.store.users[id].bannedReason.None?
  {
    if id == "" then Action(s, Refused(IdRequired))
    else if id in s.users then
      Action(s.(users := s.users[id := s.users[id].(isBanned := false, bannedAt := None, bannedReason := None)]), Done)
    else Action(s, Done)
  }

  /** Banning and then unbanning gives back the user's record as it was before any ban. */
  lemma BanThenUnban(s: Store, id: UserId, reason: Option<string>, now: int)
    requires id in s.users && !s.users[id].isBanned && s.users[id].bannedAt.None? && s.users[id].bannedReason.None?
    ensures Unban(Ban(s, id, reason, now).store, id).store == s
  {
    var s2 := Unban(Ban(s, id, reason, now).store, id).store;
    assert s2.users[id] == s.users[id];
    assert s2.users == s.users;
  }

  /** `DELETE FROM search_history WHERE telegram_id = id`, keeping the other rows in order. */
  function RowsWithout(h: seq<HistoryRow>, id: UserId): (h': seq<HistoryRow>)
    ensures forall row :: row in h' <==> row in h && row.telegramId != id
    ensures Subsequence(h', h)
    ensures forall row: HistoryRow :: row.telegramId != id ==> multiset(h')[row] == multiset(h)[row]
    ensures |h'| <= |h|
    decreases |h|
  {
    if |h| == 0 then []
    else
      var last := h[|h| - 1];
      var init := RowsWithout(h[..|h| - 1], id);
      assert h == h[..|h| - 1] + [last];
      assert forall row :: row in h <==> row in h[..|h| - 1] || row == last;
      SubsequenceSnoc(init, h[..|h| - 1], last);
      if last.telegramId == id then init else init + [last]
  }

  /**
   * `/delete-user`: the user's history rows, every referral row naming them
   * on either side, and the user's own row are deleted. The other users'
   * records, referral counts and `referred_by` included, are left as they are.
   */
  function DeleteUser(s: Store, id: UserId): (r: Action)
    ensures r.answer.Refused? <==> id == ""
    ensures r.answer.Refused? ==> r.store == s && r.answer.why == IdRequired
    ensures r.answer.Done? ==>
              && r.store.users == s.users - {id}
              && (forall p :: p in r.store.referrals <==> p in s.referrals && p.referrer != id && p.referred != id)
              && (forall row :: row in r.store.history <==> row in s.history && row.telegramId != id)
              && Subsequence(r.store.history, s.history)
              && (forall row: HistoryRow :: row.telegramId != id ==> multiset(r.store.history)[row] == multiset(s.history)[row])
              && r.store.nextRowId == s.nextRowId
  {
    if id == "" then Action(s, Refused(IdRequired))
    else
      var referrals := set p | p in s.referrals && p.referrer != id && p.referred != id;
      Action(Store(s.users - {id}, referrals, RowsWithout(s.history, id), s.nextRowId), Done)
  }

  /** Every row deleted is the user's; a fact seen in the remaining history was seen before. */
  lemma SeenWithout(h: seq<HistoryRow>, id: UserId, user: UserId, x: Value)
    ensures Seen(RowsWithout(h, id), user, x) ==> Seen(h, user, x)
  {
    if Seen(RowsWithout(h, id), user, x) {
      var row :| row in RowsWithout(h, id) && row.telegramId == user && RowHolds(row, x);
      assert row in h;
    }
  }

  /** Deleting a user's rows keeps the history invariant of the writer. */
  lemma {:induction false} RowsWithoutKeepsFresh(h: seq<HistoryRow>, id: UserId)
    requires FreshRows(h)
    ensures FreshRows(RowsWithout(h, id))
    decreases |h|
  {
    if |h| > 0 {
      var init := h[..|h| - 1];
      var last := h[|h| - 1];
      RowsWithoutKeepsFresh(init, id);
      if last.telegramId != id {
        forall x | Truthy(x) && RowHolds(last, x)
          ensures !Seen(RowsWithout(init, id), last.telegramId, x)
        {
          SeenWithout(init, id, last.telegramId, x);
        }
        FreshRowsAppend(RowsWithout(init, id), last);
      }
    }
  }

  /** Deletion keeps every ledger invariant the bot relies on. */
  lemma DeletePreservesInvariants(s: Store, id: UserId)
    requires BalancesNonNegative(s) && CodesCanonical(s) && FreshRows(s.history)
    ensures var s' := DeleteUser(s, id).store;
            BalancesNonNegative(s') && CodesCanonical(s') && FreshRows(s'.history)
  {
    RowsWithoutKeepsFresh(s.history, id);
  }

  /** The longest broadcast, in UTF-16 code units. */
  const MaxBroadcast := 4000

  /** The characters `String.prototype.trim` removes: ECMAScript white space and line terminators. */
  predicate JsWhitespace(c: char) {
    var n := c as int;
    (0x09 <= n <= 0x0D) || n == 0x20 || n == 0xA0 || n == 0x1680 || (0x2000 <= n <= 0x200A)
    || n == 0x2028 || n == 0x2029 || n == 0x202F || n == 0x205F || n == 0x3000 || n == 0xFEFF
  }

  /** Nothing but white space: what `!message || message.trim().length === 0` tests. */
  predicate Blank(message: string) {
    forall i :: 0 <= i < |message| ==> JsWhitespace(message[i])
  }

  function TrimStart(s: string): (t: string)
    ensures |t| <= |s| && t == s[|s| - |t|..]
    ensures |t| > 0 ==> !JsWhitespace(t[0])
  {
    if |s| == 0 || !JsWhitespace(s[0]) then s else TrimStart(s[1..])
  }

  function TrimEnd(s: string): (t: string)
    ensures |t| <= |s| && t == s[..|t|]
    ensures |t| > 0 ==> !JsWhitespace(t[|t| - 1])
  {
    if |s| == 0 || !JsWhitespace(s[|s| - 1]) then s else TrimEnd(s[..|s| - 1])
  }

  /** `String.prototype.trim`: white space removed from both ends. */
  function Trim(s: string): (t: string)
    ensures |t| > 0 ==> !JsWhitespace(t[0]) && !JsWhitespace(t[|t| - 1])
  {
    TrimEnd(TrimStart(s))
  }

  lemma {:induction false} TrimStartEmpty(s: string)
    ensures |TrimStart(s)| == 0 <==> Blank(s)
  {
    if |s| > 0 && JsWhitespace(s[0]) {
      TrimStartEmpty(s[1..]);
      assert forall i :: 1 <= i < |s| ==> s[i] == s[1..][i - 1];
    }
  }

  /** Trimming the end never removes a first character that is not white space. */
  lemma {:induction false} TrimEndKeepsFirst(s: string)
    requires |s| > 0 && !JsWhitespace(s[0])
    ensures |TrimEnd(s)| > 0
  {
    if JsWhitespace(s[|s| - 1]) {
      TrimEndKeepsFirst(s[..|s| - 1]);
    }
  }

  /** Trimming leaves nothing exactly when the message is all white space. */
  lemma TrimEmptyIffBlank(message: string)
    ensures |Trim(message)| == 0 <==> Blank(message)
  {
    TrimStartEmpty(message);
    if |TrimStart(message)| > 0 {
      TrimEndKeepsFirst(TrimStart(message));
    }
  }

  /** `!message || message.trim().length === 0`. */
  method EmptyMessageGuard(message: string) returns (empty: bool)
    ensures empty <==> Blank(message)
  {
    TrimEmptyIffBlank(message);
    empty := |Trim(message)| == 0;
  }

  /** What a broadcast answered; `Sent` carries the row logged to `broadcast_history`. */
  datatype Broadcasted =
    | EmptyMessage
    | TooLong
    | NoUsers
    | Sent(message: string, total: nat, successful: nat, failed: nat)

  /** The users among `sent` whose send succeeded. */
  function Reached(sent: set<UserId>, delivered: UserId -> bool): set<UserId> {
    set u | u in sent && delivered(u)
  }

  /** One more send adds one success exactly when it is delivered. */
  lemma ReachedStep(sent: set<UserId>, u: UserId, delivered: UserId -> bool)
    requires u !in sent
    ensures |Reached(sent + {u}, delivered)| == |Reached(sent, delivered)| + (if delivered(u) then 1 else 0)
    ensures |sent + {u}| == |sent| + 1
  {
    assert Reached(sent + {u}, delivered) == Reached(sent, delivered) + (if delivered(u) then {u} else {});
  }

  /**
   * `/send-broadcast`: refuse an empty or blank message, then one longer than
   * 4000 code units, then an empty user table; otherwise send to every user
   * once and tally the sends. `delivered(u)` says whether the send to `u`
   * succeeds.
   */
  method Broadcast(s: Store, message: string, delivered: UserId -> bool) returns (r: Broadcasted)
    ensures r.EmptyMessage? <==> Blank(message)
    ensures r.TooLong? <==> !Blank(message) && Utf16Length(message) > MaxBroadcast
    ensures r.NoUsers? <==> !Blank(message) && Utf16Length(message) <= MaxBroadcast && |s.users| == 0
    ensures r.Sent? ==> && r.message == message
                        && r.total == |s.users|
                        && r.successful == |Reached(s.users.Keys, delivered)|
                        && r.successful + r.failed == r.total
  {
    var empty := EmptyMessageGuard(message);
    if empty {
      return EmptyMessage;
    }
    if Utf16Length(message) > MaxBroadcast {
      return TooLong;
    }
    if |s.users| == 0 {
      return NoUsers;
    }
    var left := s.users.Keys;
    ghost var sent: set<UserId> := {};
    var ok, failed := 0, 0;
    while left != {}
      invariant left + sent == s.users.Keys && left !! sent
      invariant ok == |Reached(sent, delivered)|
      invariant ok + failed == |sent|
      decreases |left|
    {
      var u :| u in left;
      ReachedStep(sent, u, delivered);
      if delivered(u) {
        ok := ok + 1;
      } else {
        failed := failed + 1;
      }
      left := left - {u};
      sent := sent + {u};
    }
    assert |s.users.Keys| == |s.users|;
    r := Sent(message, |s.users|, ok, failed);
  }
}

=== FILE: conversation.dfy ===
/**
 * The bot's handler for every incoming message: the referral shortcut, the
 * ban gate, the reply-keyboard buttons, and the "awaiting a number" state in
 * which a ten-digit number is charged one credit and looked up.
 */
module Conversation {
  import opened Values
  import opened Store
  import opened Gateway
  import opened Dedup

  /** The reply-keyboard buttons, compared with the message text exactly. */
  const EnterNumberButton := "\U{1F4F1} Enter 10 Digit Number"
  const HelpButton := "\U{2753} Help"
  const AboutButton := "\U{2139}\U{FE0F} About"
  const WalletButton := "\U{1F4B0} Wallet"
  const CancelButton := "\U{274C} Cancel"

  /** The gift emoji of the "Refer & Earn" button. */
  const Gift := "\U{1F381}"

  /** The cost of one search, in credits. */
  const SearchCost := 1

  /** A message sent back to the user, with the data it shows. */
  datatype Reply =
    | ReferralProgram(code: string, totalReferrals: nat, earned: nat, balance: int)
    | RegisterFirst
    | BanNotice(reason: Option<string>)
    | AskNumber
    | HelpPointer
    | AboutPointer
    | WalletSummary(balance: int, totalReferrals: nat, earned: nat, active: bool)
    | Cancelled
    | InvalidInput(input: string, length: nat)
    | InsufficientBalance(balance: int)
    | Searching
    | FoundCount(total: nat)
    | ResultCard(card: Card)
    | MoreAvailable(total: nat, more: nat)
    | AllDisplayed
    | RemainingBalance(balance: int)
    | NoInformation(number: string)
    | ServiceUnavailable

  /** The database and the in-memory `userStates` (the users awaiting a number). */
  datatype Session = Session(store: Store, awaiting: set<UserId>)

  /** The state after a message, and what was sent back, in order. */
  datatype Step = Step(session: Session, replies: seq<Reply>)

  /** A search's effect on the database, and what it sent back. */
  datatype Turn = Turn(store: Store, replies: seq<Reply>)

  /** The broad match of the "Refer & Earn" button: any text mentioning Refer, Earn or the gift. */
  predicate ReferralWord(text: Option<string>) {
    text.Some? && (Contains(text.value, "Refer") || Contains(text.value, "Earn") || Contains(text.value, Gift))
  }

  /** A command, answered by its own handler. */
  predicate IsCommand(text: Option<string>) {
    text.Some? && StartsWith(text.value, "/")
  }

  /** `/^\d{10}$/.test(text)`: exactly ten ASCII digits and nothing else. */
  predicate IsTenDigits(text: Option<string>) {
    text.Some? && |text.value| == 10 && forall i :: 0 <= i < |text.value| ==> IsDigit(text.value[i])
  }

  predicate Banned(s: Store, id: UserId) {
    id in s.users && s.users[id].isBanned
  }

  /** `"${text}"`: an absent text prints as `undefined`. */
  function Echo(text: Option<string>): string {
    if text.Some? then text.value else "undefined"
  }

  /** `text ? text.length : 0`. */
  function InputLength(text: Option<string>): (n: nat)
    ensures n == 0 <==> text.None? || text.value == ""
  {
    if text.Some? then Utf16Length(text.value) else 0
  }

  /** The referral program card, or the request to register first. */
  function ReferralReply(s: Store, id: UserId): (r: Reply)
    ensures r.RegisterFirst? <==> id !in s.users
    ensures r.ReferralProgram? ==> r.code == s.users[id].referralCode && r.balance == s.users[id].balance
                                   && r.totalReferrals == s.users[id].totalReferrals
                                   && r.earned == ReferralEarnings(s, id)
  {
    if id !in s.users then RegisterFirst
    else
      var u := s.users[id];
      ReferralProgram(u.referralCode, u.totalReferrals, ReferralEarnings(s, id), u.balance)
  }

  /** The wallet card; the status line reads active exactly when the balance is positive. */
  function WalletReply(s: Store, id: UserId): (r: Reply)
    ensures r.RegisterFirst? <==> id !in s.users
    ensures r.WalletSummary? ==> r.balance == s.users[id].balance && (r.active <==> r.balance > 0)
                                 && r.totalReferrals == s.users[id].totalReferrals
                                 && r.earned == ReferralEarnings(s, id)
  {
    if id !in s.users then RegisterFirst
    else
      var u := s.users[id];
      WalletSummary(u.balance, u.totalReferrals, ReferralEarnings(s, id), u.balance > 0)
  }

  /** The search keeps its credit: the lookup answered, and nothing threw while answering. */
  predicate Chargeable(g: Response) {
    var o := Classify(g);
    o.NotFound? || (o.Found? && !DisplayFaults(o.rs))
  }

  /** How the handler answers a lookup outcome, and whether the debited credit is kept. */
  datatype Reaction = Reaction(keep: bool, replies: seq<Reply>)

  /**
   * The `.then` and `.catch` handlers on the lookup outcome, after the debit:
   * `balance` is what the remaining-balance line reads. Whatever throws in
   * `.then` ends in the `.catch`: the refund and the unavailable notice.
   */
  function React(o: Outcome, number: string, balance: int): (r: Reaction)
    ensures r.keep <==> o.NotFound? || (o.Found? && !DisplayFaults(o.rs))
    ensures |r.replies| >= 1
    ensures !r.keep ==> r.replies[|r.replies| - 1] == ServiceUnavailable
    ensures o.NotFound? ==> r.replies == [NoInformation(number)]
    ensures o.Failed? ==> r.replies == [ServiceUnavailable]
    ensures o.Unlistable? ==> r.replies == [FoundCount(o.count), ServiceUnavailable]
    ensures o.Found? && r.keep ==> r.replies == AnswerFound(o.rs, balance)
    ensures o.Found? && !r.keep ==>
              var cards := ShowResults(o.rs).cards;
              && r.replies[0] == FoundCount(|o.rs|)
              && |r.replies| == |cards| + 2
              && |cards| < Min(ShownResults, |o.rs|) && RenderFaults(o.rs[|cards|])
              && (forall i :: 0 <= i < |cards| ==> r.replies[1 + i] == ResultCard(RenderCard(o.rs[i], i + 1)))
  {
    match o
    case Failed => Reaction(false, [ServiceUnavailable])
    case NotFound => Reaction(true, [NoInformation(number)])
    case Unlistable(count) => Reaction(false, [FoundCount(count), ServiceUnavailable])
    case Found(rs) =>
      if DisplayFaults(rs) then
        var cards := CardReplies(rs);
        var replies := [FoundCount(|rs|)] + cards + [ServiceUnavailable];
        assert forall i :: 0 <= i < |cards| ==> replies[1 + i] == cards[i];
        Reaction(false, replies)
      else Reaction(true, AnswerFound(rs, balance))
  }

  /** The store of a search that the handler refunds is the store it started from. */
  lemma RefundRestores(s: Store, id: UserId)
    requires BalanceOf(s, id) >= 1
    ensures Credit(TryDebit(s, id).store, id, SearchCost) == s
  {
    var s1 := TryDebit(s, id).store;
    assert s1.users[id].(balance := s1.users[id].balance + 1) == s.users[id];
    assert s1.users[id := s.users[id]] == s.users;
  }

  /** One card message per result rendered before any fault, numbered from 1. */
  function CardReplies(rs: seq<Result>): (cards: seq<Reply>)
    ensures |cards| == |ShowResults(rs).cards|
    ensures !DisplayFaults(rs) ==> |cards| == Min(ShownResults, |rs|)
    ensures forall i :: 0 <= i < |cards| ==> !RenderFaults(rs[i]) && cards[i] == ResultCard(RenderCard(rs[i], i + 1))
  {
    var out := ShowResults(rs);
    seq(|out.cards|, i requires 0 <= i < |out.cards| => ResultCard(out.cards[i]))
  }

  /**
   * What a lookup with results says after the debit notice: the count, a card
   * for each of the first five results, how many more there are (or that all
   * were shown), and the balance left.
   */
  function AnswerFound(rs: seq<Result>, balance: int): (replies: seq<Reply>)
    requires !DisplayFaults(rs)
    ensures |replies| == Min(ShownResults, |rs|) + 3
    ensures replies[0] == FoundCount(|rs|)
    ensures forall i :: 0 <= i < Min(ShownResults, |rs|) ==> replies[1 + i] == ResultCard(RenderCard(rs[i], i + 1))
    ensures replies[Min(ShownResults, |rs|) + 1] ==
              (if |rs| > ShownResults then MoreAvailable(|rs|, |rs| - ShownResults) else AllDisplayed)
    ensures replies[Min(ShownResults, |rs|) + 2] == RemainingBalance(balance)
  {
    var summary := if |rs| > ShownResults then MoreAvailable(|rs|, |rs| - ShownResults) else AllDisplayed;
    var cards := CardReplies(rs);
    var n := |cards|;
    seq(n + 3, i requires 0 <= i < n + 3 =>
      if i == 0 then FoundCount(|rs|)
      else if i <= n then cards[i - 1]
      else if i == n + 1 then summary
      else RemainingBalance(balance))
  }

  /** A search that keeps its credit and has results to store: the one case that writes history. */
  predicate Stores(s: Store, id: UserId, g: Response) {
    BalanceOf(s, id) >= SearchCost && Classify(g).Found? && Chargeable(g)
  }

  /** The database after a search. */
  function SearchStore(s: Store, id: UserId, number: string, g: Response, now: int, writable: bool): (s': Store)
    ensures BalanceOf(s, id) < SearchCost ==> s' == s
    ensures BalanceOf(s, id) >= SearchCost ==>
              BalanceOf(s', id) == BalanceOf(s, id) - (if Chargeable(g) then SearchCost else 0)
    ensures BalanceOf(s, id) >= SearchCost && !Chargeable(g) ==> s' == s
    ensures s'.users.Keys == s.users.Keys && s'.referrals == s.referrals
    ensures forall u :: u in s.users && u != id ==> s'.users[u] == s.users[u]
    ensures id in s.users ==> s'.users[id] == s.users[id].(balance := s'.users[id].balance)
    ensures Stores(s, id, g) ==> s' == AppendIfNew(TryDebit(s, id).store, id, number, Classify(g).rs, now, writable)
    ensures !Stores(s, id, g) ==> s'.history == s.history && s'.nextRowId == s.nextRowId
    ensures BalancesNonNegative(s) ==> BalancesNonNegative(s')
    ensures FreshRows(s.history) ==> FreshRows(s'.history)
  {
    match TryDebit(s, id)
    case Insufficient(_) => s
    case Debited(s1) =>
      if !Chargeable(g) then
        RefundRestores(s, id);
        Credit(s1, id, SearchCost)
      else if Classify(g).Found? then
        var rs := Classify(g).rs;
        AppendKeepsFresh(s1, id, number, rs, now, writable);
        var s2 := AppendIfNew(s1, id, number, rs, now, writable);
        assert s2.users == s1.users && s2.referrals == s1.referrals;
        s2
      else s1
  }

  /** What a search sends back; `React` gets the balance left after the debit. */
  function SearchReplies(s: Store, id: UserId, number: string, g: Response): (replies: seq<Reply>)
    ensures BalanceOf(s, id) < SearchCost ==> replies == [InsufficientBalance(BalanceOf(s, id))]
    ensures BalanceOf(s, id) >= SearchCost ==>
              replies == [Searching] + React(Classify(g), number, BalanceOf(s, id) - SearchCost).replies
    ensures BalanceOf(s, id) >= SearchCost ==> |replies| >= 2 && replies[0] == Searching
    ensures BalanceOf(s, id) >= SearchCost && !Chargeable(g) ==> replies[|replies| - 1] == ServiceUnavailable
    ensures Stores(s, id, g) ==> replies == [Searching] + AnswerFound(Classify(g).rs, BalanceOf(s, id) - SearchCost)
  {
    if BalanceOf(s, id) < SearchCost then [InsufficientBalance(BalanceOf(s, id))]
    else [Searching] + React(Classify(g), number, BalanceOf(s, id) - SearchCost).replies
  }

  /**
   * A ten-digit number from a user awaiting one: check the balance, debit one
   * credit, query the lookup service and show what it found. When the lookup
   * fails, or answering throws, the credit is refunded; otherwise the new
   * results are written to the history (`writable` is false when that write
   * fails, which is swallowed).
   */
  function Search(s: Store, id: UserId, number: string, g: Response, now: int, writable: bool): (t: Turn)
    // not enough credits: nothing happens beyond the notice
    ensures BalanceOf(s, id) < SearchCost ==> t.store == s && t.replies == [InsufficientBalance(BalanceOf(s, id))]
    // otherwise the user is told a credit was taken before anything else
    ensures BalanceOf(s, id) >= SearchCost ==> |t.replies| >= 2 && t.replies[0] == Searching
    // and then answered as the lookup's outcome dictates: the not-found notice, the cards
    // sent before a fault, or the full answer, with the balance left after the debit
    ensures BalanceOf(s, id) >= SearchCost ==>
              t.replies == [Searching] + React(Classify(g), number, BalanceOf(s, id) - SearchCost).replies
    // the credit is kept exactly when the lookup answered and nothing threw
    ensures BalanceOf(s, id) >= SearchCost ==>
              BalanceOf(t.store, id) == BalanceOf(s, id) - (if Chargeable(g) then SearchCost else 0)
    // a refunded search leaves the database exactly as it was, and says so last
    ensures BalanceOf(s, id) >= SearchCost && !Chargeable(g) ==>
              t.store == s && t.replies[|t.replies| - 1] == ServiceUnavailable
    // only the searching user's balance moves, and the history grows only by the dedup writer
    ensures t.store.users.Keys == s.users.Keys && t.store.referrals == s.referrals
    ensures forall u :: u in s.users && u != id ==> t.store.users[u] == s.users[u]
    ensures id in s.users ==> t.store.users[id] == s.users[id].(balance := t.store.users[id].balance)
    ensures Stores(s, id, g) ==> t.store == AppendIfNew(TryDebit(s, id).store, id, number, Classify(g).rs, now, writable)
    ensures !Stores(s, id, g) ==> t.store.history == s.history && t.store.nextRowId == s.nextRowId
    ensures BalancesNonNegative(s) ==> BalancesNonNegative(t.store)
    ensures FreshRows(s.history) ==> FreshRows(t.store.history)
    // a successful lookup answers as below, with the balance left after the debit
    ensures BalanceOf(s, id) >= SearchCost && Classify(g).Found? && Chargeable(g) ==>
              t.replies == [Searching] + AnswerFound(Classify(g).rs, BalanceOf(s, id) - SearchCost)
  {
    Turn(SearchStore(s, id, number, g, now, writable), SearchReplies(s, id, number, g))
  }

  /** Handled before the state machine: the referral shortcut, a command, or a banned sender. */
  predicate Bypassed(s: Store, id: UserId, text: Option<string>) {
    ReferralWord(text) || IsCommand(text) || Banned(s, id)
  }

  /** A message that starts a search: a ten-digit number from a user awaiting one who is not banned. */
  predicate SearchRequest(sess: Session, id: UserId, text: Option<string>) {
    !Banned(sess.store, id) && id in sess.awaiting && IsTenDigits(text)
  }

  /** A ten-digit number is no button, no command and no referral word, so the state machine sees it. */
  lemma TenDigitsIsPlain(text: Option<string>)
    ensures IsTenDigits(text) ==> !ReferralWord(text) && !IsCommand(text)
    ensures IsTenDigits(text) ==>
              text !in {Some(EnterNumberButton), Some(HelpButton), Some(AboutButton), Some(WalletButton), Some(CancelButton)}
  {
    if !IsTenDigits(text) {
      return;
    }
    var t := text.value;
    forall p: string, i | |p| > 0 && !IsDigit(p[0]) && 0 <= i <= |t|
      ensures !OccursAt(t, p, i)
    {
      if i + |p| <= |t| {
        assert t[i..i + |p|][0] == t[i];
      }
    }
    assert !OccursAt(t, "Refer", 0);
    assert !IsDigit("/"[0]);
    assert !IsDigit(Gift[0]);
    assert !IsDigit(EnterNumberButton[0]) && !IsDigit(HelpButton[0]) && !IsDigit(AboutButton[0]);
    assert !IsDigit(WalletButton[0]) && !IsDigit(CancelButton[0]);
  }

  /**
   * `bot.on('message')`. `text` is absent for messages without text; `g` is
   * what the lookup service would answer; `now` is the clock reading.
   */
  function OnMessage(sess: Session, id: UserId, text: Option<string>, g: Response, now: int, writable: bool): (r: Step)
    // the referral shortcut answers everyone, banned users included, and changes nothing
    ensures ReferralWord(text) ==> r.session == sess && r.replies == [ReferralReply(sess.store, id)]
    // commands are left to their own handlers
    ensures !ReferralWord(text) && IsCommand(text) ==> r.session == sess && r.replies == []
    // a banned user gets the ban notice, with the reason when one was given, and nothing else happens
    ensures !ReferralWord(text) && !IsCommand(text) && Banned(sess.store, id) ==>
              r.session == sess && r.replies == [BanNotice(Nullify(sess.store.users[id].bannedReason))]
    // everyone else's waiting state is untouched; the sender waits after the message exactly when
    // they pressed the number button, or were waiting and neither cancelled nor sent a valid number
    ensures r.session.awaiting - {id} == sess.awaiting - {id}
    ensures !Bypassed(sess.store, id, text) ==>
              (id in r.session.awaiting <==>
                 (text == Some(EnterNumberButton) || (id in sess.awaiting && text != Some(CancelButton) && !IsTenDigits(text))))
    // a credit is taken exactly for a search request that the balance covers and the lookup answers
    ensures BalanceOf(r.session.store, id) == BalanceOf(sess.store, id) -
              (if SearchRequest(sess, id, text) && BalanceOf(sess.store, id) >= SearchCost && Chargeable(g) then SearchCost else 0)
    // nobody else's record changes, no user appears or disappears, and the history grows only by a search
    ensures r.session.store.users.Keys == sess.store.users.Keys
    ensures r.session.store.referrals == sess.store.referrals
    ensures forall u :: u in sess.store.users && u != id ==> r.session.store.users[u] == sess.store.users[u]
    ensures id in sess.store.users ==>
              r.session.store.users[id] == sess.store.users[id].(balance := r.session.store.users[id].balance,
                                                                 lastActive := r.session.store.users[id].lastActive)
    ensures r.session.store.history != sess.store.history ==> SearchRequest(sess, id, text)
    // a search request is the search on the touched tables: its database and its replies
    ensures SearchRequest(sess, id, text) ==>
              && id !in r.session.awaiting
              && var t := Search(Touch(sess.store, id, now), id, text.value, g, now, writable);
                 r.session.store == t.store && r.replies == t.replies
    // a message that is neither a button nor a valid number from a waiting user reaches no ledger
    ensures !Bypassed(sess.store, id, text) && id in sess.awaiting && !IsTenDigits(text)
              && text !in {Some(EnterNumberButton), Some(HelpButton), Some(AboutButton), Some(WalletButton), Some(CancelButton)} ==>
              r.session.store == Touch(sess.store, id, now) && r.replies == [InvalidInput(Echo(text), InputLength(text))]
    // each button gets its one fixed answer, on the touched tables
    ensures !Bypassed(sess.store, id, text) && text == Some(EnterNumberButton) ==>
              r.session.store == Touch(sess.store, id, now) && r.replies == [AskNumber]
    ensures !Bypassed(sess.store, id, text) && text == Some(HelpButton) ==>
              r.session.store == Touch(sess.store, id, now) && r.replies == [HelpPointer]
    ensures !Bypassed(sess.store, id, text) && text == Some(AboutButton) ==>
              r.session.store == Touch(sess.store, id, now) && r.replies == [AboutPointer]
    ensures !Bypassed(sess.store, id, text) && text == Some(WalletButton) ==>
              r.session.store == Touch(sess.store, id, now) && r.replies == [WalletReply(Touch(sess.store, id, now), id)]
    ensures !Bypassed(sess.store, id, text) && text == Some(CancelButton) ==>
              r.session.store == Touch(sess.store, id, now) && r.replies == [Cancelled]
    // any other text from a user who is not waiting only marks them active, and gets no answer
    ensures !Bypassed(sess.store, id, text) && id !in sess.awaiting
              && text !in {Some(EnterNumberButton), Some(HelpButton), Some(AboutButton), Some(WalletButton), Some(CancelButton)} ==>
              r.session.store == Touch(sess.store, id, now) && r.replies == []
  {
    var s := sess.store;
    TenDigitsIsPlain(text);
    if ReferralWord(text) then Step(sess, [ReferralReply(s, id)])
    else if IsCommand(text) then Step(sess, [])
    else if Banned(s, id) then Step(sess, [BanNotice(Nullify(s.users[id].bannedReason))])
    else
      var s1 := Touch(s, id, now);
      if text == Some(EnterNumberButton) then Step(Session(s1, sess.awaiting + {id}), [AskNumber])
      else if text == Some(HelpButton) then Step(Session(s1, sess.awaiting), [HelpPointer])
      else if text == Some(AboutButton) then Step(Session(s1, sess.awaiting), [AboutPointer])
      else if text == Some(WalletButton) then Step(Session(s1, sess.awaiting), [WalletReply(s1, id)])
      else if text == Some(CancelButton) then Step(Session(s1, sess.awaiting - {id}), [Cancelled])
      else if id in sess.awaiting then
        if IsTenDigits(text) then
          var t := Search(s1, id, text.value, g, now, writable);
          Step(Session(t.store, sess.awaiting - {id}), t.replies)
        else Step(Session(s1, sess.awaiting), [InvalidInput(Echo(text), InputLength(text))])
      else Step(Session(s1, sess.awaiting), [])
  }

  /** No message drives a balance below zero or lets one user's rows hold the same result id twice. */
  lemma OnMessageKeepsInvariants(sess: Session, id: UserId, text: Option<string>, g: Response, now: int, writable: bool, r: Step)
    requires r == OnMessage(sess, id, text, g, now, writable)
    ensures BalancesNonNegative(sess.store) ==> BalancesNonNegative(r.session.store)
    ensures FreshRows(sess.store.history) ==> FreshRows(r.session.store.history)
  {
  }
}

=== FILE: dedup.dfy ===
/**
 * The deduplicating history writer of a successful search: results whose id
 * an earlier row of the same user already holds are dropped, results without
 * an id are always kept, and one row is written only when something is new.
 *
 * "Already holds" is stated here on decoded results (an equal id). The text
 * match the bot performs instead is modelled in module JsonText.
 */
module Dedup {
  import opened Values
  import opened Store

  /** `person.id`. */
  function IdOf(r: Result): Value {
    Get(r, "id")
  }

  /** A history row whose decoded array holds an object with this id. */
  predicate RowHolds(row: HistoryRow, id: Value) {
    row.payload.Items? && exists e :: e in row.payload.elems && e.ObjElem? && IdOf(e.r) == id
  }

  /** Some row of `user` in `history` holds a result with this id. */
  predicate Seen(history: seq<HistoryRow>, user: UserId, id: Value) {
    exists row :: row in history && row.telegramId == user && RowHolds(row, id)
  }

  /** The result is stored by this search: it has no (truthy) id, or no earlier row of the user holds its id. */
  predicate IsNew(history: seq<HistoryRow>, user: UserId, r: Result) {
    !Truthy(IdOf(r)) || !Seen(history, user, IdOf(r))
  }

  /** `xs` is `ys` with some elements left out, order kept. */
  predicate Subsequence<T(==)>(xs: seq<T>, ys: seq<T>)
    decreases |ys|
  {
    if |xs| == 0 then true
    else if |ys| == 0 then false
    else if xs[0] == ys[0] then Subsequence(xs[1..], ys[1..])
    else Subsequence(xs, ys[1..])
  }

  /** Appending one element to the longer sequence, or to both, keeps a subsequence one. */
  lemma {:induction false} SubsequenceSnoc<T>(xs: seq<T>, ys: seq<T>, y: T)
    requires Subsequence(xs, ys)
    ensures Subsequence(xs, ys + [y])
    ensures Subsequence(xs + [y], ys + [y])
    decreases |ys|
  {
    if |ys| == 0 {
      assert xs == [];
      assert ([] + [y])[1..] == [];
    } else {
      assert (ys + [y])[1..] == ys[1..] + [y];
      if |xs| == 0 {
        SubsequenceSnoc([], ys[1..], y);
        assert xs + [y] == [y];
        assert [y][1..] == [];
      } else if xs[0] == ys[0] {
        SubsequenceSnoc(xs[1..], ys[1..], y);
        assert (xs + [y])[1..] == xs[1..] + [y];
      } else {
        SubsequenceSnoc(xs, ys[1..], y);
      }
    }
  }

  /** The in-order filter of the new results, without its properties (they follow in `KeepNewSpec`). */
  function KeepNew(history: seq<HistoryRow>, user: UserId, rs: seq<Result>): seq<Result> {
    if |rs| == 0 then []
    else if IsNew(history, user, rs[0]) then [rs[0]] + KeepNew(history, user, rs[1..])
    else KeepNew(history, user, rs[1..])
  }

  lemma {:induction false} KeepNewSpec(history: seq<HistoryRow>, user: UserId, rs: seq<Result>)
    ensures var kept := KeepNew(history, user, rs);
            && Subsequence(kept, rs)
            && (forall r :: r in kept ==> r in rs && IsNew(history, user, r))
            && (forall r :: r in rs && IsNew(history, user, r) ==> r in kept)
  {
    if |rs| > 0 {
      KeepNewSpec(history, user, rs[1..]);
      assert forall r :: r in rs ==> r == rs[0] || r in rs[1..];
    }
  }

  /**
   * The `newResults` loop: walks the gateway's results in order and keeps the
   * new ones. Every check is against the rows stored before this search, so
   * two equal ids inside one response are both kept.
   */
  function NewResults(history: seq<HistoryRow>, user: UserId, rs: seq<Result>): (kept: seq<Result>)
    ensures Subsequence(kept, rs)
    ensures forall r :: r in kept ==> r in rs && IsNew(history, user, r)
    ensures forall r :: r in rs && IsNew(history, user, r) ==> r in kept
    ensures forall r :: r in rs && !Truthy(IdOf(r)) ==> r in kept
    ensures forall r :: r in rs && Truthy(IdOf(r)) ==> (r !in kept <==> Seen(history, user, IdOf(r)))
  {
    KeepNewSpec(history, user, rs);
    KeepNew(history, user, rs)
  }

  /** The stored JSON array of a batch of results. */
  function AsElems(rs: seq<Result>): (es: seq<Elem>)
    ensures |es| == |rs|
    ensures forall i :: 0 <= i < |rs| ==> es[i] == ObjElem(rs[i])
  {
    seq(|rs|, i requires 0 <= i < |rs| => ObjElem(rs[i]))
  }

  /**
   * Save the search: insert one row holding the new results when there are
   * any. `writable` is false when the insert (or a lookup before it) throws;
   * the error is swallowed and nothing is written.
   */
  function AppendIfNew(s: Store, user: UserId, number: string, rs: seq<Result>, now: int, writable: bool): (s': Store)
    ensures s'.users == s.users && s'.referrals == s.referrals
    ensures var kept := NewResults(s.history, user, rs);
            if writable && |kept| > 0 then
              && s'.history == s.history + [HistoryRow(s.nextRowId, user, number, Items(AsElems(kept)), now)]
              && s'.nextRowId == s.nextRowId + 1
            else s' == s
  {
    var kept := NewResults(s.history, user, rs);
    if writable && |kept| > 0 then
      s.(history := s.history + [HistoryRow(s.nextRowId, user, number, Items(AsElems(kept)), now)],
         nextRowId := s.nextRowId + 1)
    else s
  }

  /** No truthy id the row holds is held by an earlier row of the same user. */
  ghost predicate RowIsFresh(prior: seq<HistoryRow>, row: HistoryRow) {
    forall id :: Truthy(id) && RowHolds(row, id) ==> !Seen(prior, row.telegramId, id)
  }

  /**
   * The history invariant: for every user, no (truthy) result id is held by
   * two different rows of that user.
   */
  ghost predicate FreshRows(h: seq<HistoryRow>)
    decreases |h|
  {
    |h| == 0 || (FreshRows(h[..|h| - 1]) && RowIsFresh(h[..|h| - 1], h[|h| - 1]))
  }

  lemma FreshRowsAppend(h: seq<HistoryRow>, row: HistoryRow)
    ensures FreshRows(h + [row]) <==> FreshRows(h) && RowIsFresh(h, row)
  {
    assert (h + [row])[..|h|] == h;
  }

  /** A row of a batch of results holds exactly the ids of those results. */
  lemma BatchHolds(row: HistoryRow, kept: seq<Result>, id: Value)
    requires row.payload == Items(AsElems(kept))
    ensures RowHolds(row, id) <==> exists r :: r in kept && IdOf(r) == id
  {
    var es := AsElems(kept);
    if RowHolds(row, id) {
      var e :| e in es && e.ObjElem? && IdOf(e.r) == id;
      var i :| 0 <= i < |es| && es[i] == e;
      assert kept[i] in kept;
    }
    if r :| r in kept && IdOf(r) == id {
      var i :| 0 <= i < |kept| && kept[i] == r;
      assert es[i] in es;
    }
  }

  /**
   * The writer keeps the history invariant: the row it adds holds no id an
   * earlier row of the same user holds.
   */
  lemma AppendKeepsFresh(s: Store, user: UserId, number: string, rs: seq<Result>, now: int, writable: bool)
    ensures FreshRows(s.history) ==> FreshRows(AppendIfNew(s, user, number, rs, now, writable).history)
  {
    var kept := NewResults(s.history, user, rs);
    if FreshRows(s.history) && writable && |kept| > 0 {
      var row := HistoryRow(s.nextRowId, user, number, Items(AsElems(kept)), now);
      forall id | Truthy(id) && RowHolds(row, id)
        ensures !Seen(s.history, user, id)
      {
        BatchHolds(row, kept, id);
      }
      FreshRowsAppend(s.history, row);
    }
  }

  /** Seen only grows as rows are appended. */
  lemma SeenAppend(h: seq<HistoryRow>, row: HistoryRow, user: UserId, id: Value)
    ensures Seen(h + [row], user, id) <==> Seen(h, user, id) || (row.telegramId == user && RowHolds(row, id))
  {
    if Seen(h + [row], user, id) {
      var x :| x in h + [row] && x.telegramId == user && RowHolds(x, id);
      assert x in h || x == row;
    }
    if row.telegramId == user && RowHolds(row, id) {
      assert row in h + [row];
    }
    if Seen(h, user, id) {
      var x :| x in h && x.telegramId == user && RowHolds(x, id);
      assert x in h + [row];
    }
  }

  /**
   * Repeating a search with the same response stores no id-bearing result a
   * second time: after a successful write, every result of the batch with an
   * id is seen, so the next batch keeps only the results without one.
   */
  lemma RepeatStoresOnlyUnidentified(s: Store, user: UserId, number: string, rs: seq<Result>, now: int)
    ensures var s' := AppendIfNew(s, user, number, rs, now, true);
            forall r :: r in NewResults(s'.history, user, rs) ==> !Truthy(IdOf(r))
  {
    var s' := AppendIfNew(s, user, number, rs, now, true);
    var kept := NewResults(s.history, user, rs);
    forall r | r in rs && Truthy(IdOf(r))
      ensures Seen(s'.history, user, IdOf(r))
    {
      if r in kept {
        var row := HistoryRow(s.nextRowId, user, number, Items(AsElems(kept)), now);
        assert s'.history == s.history + [row];
        BatchHolds(row, kept, IdOf(r));
        SeenAppend(s.history, row, user, IdOf(r));
      } else if s'.history != s.history {
        var row := HistoryRow(s.nextRowId, user, number, Items(AsElems(kept)), now);
        SeenAppend(s.history, row, user, IdOf(r));
      }
    }
    var again := NewResults(s'.history, user, rs);
    assert forall r :: r in again ==> r in rs && IsNew(s'.history, user, r);
  }

  /**
   * The history writer on `a + b` keeps what it keeps on `a` followed by what
   * it keeps on `b`; with the one-result case below this pins the kept list
   * down as the in-order filter of the response.
   */
  lemma {:induction false} NewResultsAppend(history: seq<HistoryRow>, user: UserId, a: seq<Result>, b: seq<Result>)
    ensures NewResults(history, user, a + b) == NewResults(history, user, a) + NewResults(history, user, b)
  {
    KeepNewAppend(history, user, a, b);
  }

  lemma {:induction false} KeepNewAppend(history: seq<HistoryRow>, user: UserId, a: seq<Result>, b: seq<Result>)
    ensures KeepNew(history, user, a + b) == KeepNew(history, user, a) + KeepNew(history, user, b)
  {
    if |a| == 0 {
      assert a + b == b;
    } else {
      assert (a + b)[1..] == a[1..] + b;
      KeepNewAppend(history, user, a[1..], b);
    }
  }

  lemma NewResultsSingle(history: seq<HistoryRow>, user: UserId, r: Result)
    ensures NewResults(history, user, [r]) == if IsNew(history, user, r) then [r] else []
  {
    assert [r][1..] == [];
    assert KeepNew(history, user, [r][1..]) == [];
    assert NewResults(history, user, [r]) == KeepNew(history, user, [r]);
  }

  /**
   * A worked example: a result with id 7 and one without an id. The
   * first search stores both; the same response again stores only the one
   * without an id.
   */
  lemma RepeatedSearchScenario(s: Store, user: UserId, number: string, now: int, later: int)
    requires forall row :: row in s.history ==> row.telegramId != user
    ensures var seven := Result([Field("id", Num(7)), Field("name", Str("A"))]);
            var anon := Result([Field("name", Str("B"))]);
            var s1 := AppendIfNew(s, user, number, [seven, anon], now, true);
            var s2 := AppendIfNew(s1, user, number, [seven, anon], later, true);
            && s1.history == s.history + [HistoryRow(s.nextRowId, user, number, Items([ObjElem(seven), ObjElem(anon)]), now)]
            && s2.history == s1.history + [HistoryRow(s1.nextRowId, user, number, Items([ObjElem(anon)]), later)]
  {
    var seven := Result([Field("id", Num(7)), Field("name", Str("A"))]);
    var anon := Result([Field("name", Str("B"))]);
    FirstSearchKeepsBoth(s.history, user, seven, anon);
    assert AsElems([seven, anon]) == [ObjElem(seven), ObjElem(anon)];
    var s1 := AppendIfNew(s, user, number, [seven, anon], now, true);
    var row := HistoryRow(s.nextRowId, user, number, Items([ObjElem(seven), ObjElem(anon)]), now);
    assert s1.history == s.history + [row];
    RepeatKeepsAnon(s1.history, row, user, seven, anon);
    assert AsElems([anon]) == [ObjElem(anon)];
  }

  /** With no earlier row of the user, both results of the example are new. */
  lemma FirstSearchKeepsBoth(h: seq<HistoryRow>, user: UserId, seven: Result, anon: Result)
    requires forall row :: row in h ==> row.telegramId != user
    requires seven == Result([Field("id", Num(7)), Field("name", Str("A"))])
    requires anon == Result([Field("name", Str("B"))])
    ensures NewResults(h, user, [seven, anon]) == [seven, anon]
  {
    assert IdOf(anon) == Null;
    assert !Seen(h, user, Num(7));
    assert [seven] + [anon] == [seven, anon];
    NewResultsAppend(h, user, [seven], [anon]);
    NewResultsSingle(h, user, seven);
    NewResultsSingle(h, user, anon);
  }

  /** Once a row of the user holds the example's results, only the one without an id is new. */
  lemma RepeatKeepsAnon(h: seq<HistoryRow>, row: HistoryRow, user: UserId, seven: Result, anon: Result)
    requires row in h && row.telegramId == user && row.payload == Items([ObjElem(seven), ObjElem(anon)])
    requires seven == Result([Field("id", Num(7)), Field("name", Str("A"))])
    requires anon == Result([Field("name", Str("B"))])
    ensures NewResults(h, user, [seven, anon]) == [anon]
  {
    assert IdOf(seven) == Num(7);
    assert IdOf(anon) == Null;
    assert RowHolds(row, Num(7)) by {
      assert ObjElem(seven) in row.payload.elems;
    }
    assert Seen(h, user, Num(7));
    assert [seven] + [anon] == [seven, anon];
    NewResultsAppend(h, user, [seven], [anon]);
    NewResultsSingle(h, user, seven);
    NewResultsSingle(h, user, anon);
  }
}

=== FILE: gateway.dfy ===
/**
 * The lookup service as the bot sees it: the response shapes it can get back,
 * how the `.then`/`.catch` pair classifies them, and how the first results
 * are rendered as cards.
 */
module Gateway {
  import opened Values

  /**
   * `response.data.result`: an array of result objects, a string (which has a
   * length but cannot be iterated), or anything else (no usable length).
   */
  datatype ResultList = NotAList | Text(t: string) | List(rs: seq<Result>)

  /** `response.data`: missing (null or undefined), or an object with `success` and `result`. */
  datatype Body = NoData | Data(success: Value, result: ResultList)

  /** The HTTP call: rejected (network or HTTP error), or resolved with a body. */
  datatype Response = Rejected | Answered(body: Body)

  /**
   * Found: results to show. Unlistable: a non-empty string passed the
   * length test, the count is announced, and iterating it throws.
   * NotFound: the service answered but had nothing. Failed: the promise
   * rejected, or reading the body threw, so the `.catch` handler runs.
   */
  datatype Outcome = Found(rs: seq<Result>) | Unlistable(count: nat) | NotFound | Failed

  /** The test `data.success && data.result && data.result.length > 0` and the `.catch` path. */
  function Classify(g: Response): (o: Outcome)
    ensures o.Failed? <==> g.Rejected? || g.body.NoData?
    ensures o.Found? <==> g.Answered? && g.body.Data? && Truthy(g.body.success)
                          && g.body.result.List? && |g.body.result.rs| > 0
    ensures o.Found? ==> o.rs == g.body.result.rs && |o.rs| > 0
    ensures o.Unlistable? <==> g.Answered? && g.body.Data? && Truthy(g.body.success)
                               && g.body.result.Text? && g.body.result.t != ""
    ensures o.Unlistable? ==> o.count == Utf16Length(g.body.result.t) > 0
  {
    match g
    case Rejected => Failed
    case Answered(NoData) => Failed
    case Answered(Data(success, result)) =>
      if !Truthy(success) then NotFound
      else match result
        case List(rs) => if |rs| > 0 then Found(rs) else NotFound
        case Text(t) => if t != "" then Unlistable(Utf16Length(t)) else NotFound
        case NotAList => NotFound
  }

  /** How many results are shown individually. */
  const ShownResults := 5

  /** How many UTF-16 code units of an address are shown. */
  const AddressPreview := 100

  /** The placeholder for an absent field. */
  const NotAvailable := "N/A"

  /** One result as shown to the user; `position` counts from 1. */
  datatype Card = Card(position: nat, name: string, father: string, mobile: string, altMobile: string,
                       address: string, circle: string, idNumber: string)

  /** `${v || 'N/A'}`. */
  function Shown(v: Value): string {
    if Truthy(v) then JsString(v) else NotAvailable
  }

  /** A card line reads the value as text when it is truthy, and the placeholder otherwise. */
  predicate ShowsField(v: Value, text: string) {
    (Truthy(v) ==> text == JsString(v)) && (!Truthy(v) ==> text == NotAvailable)
  }

  /**
   * `person.address.substring(0, 100)` throws a TypeError when the address is
   * truthy but not a string; that aborts the `.then` handler.
   */
  predicate RenderFaults(r: Result) {
    var a := Get(r, "address");
    Truthy(a) && !a.Str?
  }

  /** The address line: at most 100 code units of it and "...", or the placeholder. */
  function AddressLine(a: Value): (line: string)
    requires !(Truthy(a) && !a.Str?)
    ensures Truthy(a) ==> Utf16Length(line) <= AddressPreview + 3
    ensures Truthy(a) ==> exists k :: 0 <= k <= |a.s| && line == a.s[..k] + "..."
                                      && Utf16Length(a.s[..k]) <= AddressPreview
                                      && (k < |a.s| ==> Utf16Length(a.s[..k]) + Utf16Units(a.s[k]) > AddressPreview)
    ensures Truthy(a) && Utf16Length(a.s) <= AddressPreview ==> line == a.s + "..."
    ensures !Truthy(a) ==> line == NotAvailable
  {
    if Truthy(a) then
      var p := Utf16Prefix(a.s, AddressPreview);
      Utf16LengthAppend(p, "...");
      Utf16PrefixWhole(a.s, AddressPreview);
      p + "..."
    else NotAvailable
  }

  lemma {:induction false} Utf16LengthAppend(a: string, b: string)
    ensures Utf16Length(a + b) == Utf16Length(a) + Utf16Length(b)
  {
    if |a| > 0 {
      assert (a + b)[1..] == a[1..] + b;
      Utf16LengthAppend(a[1..], b);
    } else {
      assert a + b == b;
    }
  }

  /** A text that fits is kept whole. */
  lemma {:induction false} Utf16PrefixWhole(s: string, units: nat)
    ensures Utf16Length(s) <= units ==> Utf16Prefix(s, units) == s
  {
    if |s| > 0 && Utf16Length(s) <= units {
      var rest := units - Utf16Units(s[0]);
      assert Utf16Length(s[1..]) <= rest;
      Utf16PrefixWhole(s[1..], rest);
      assert Utf16Prefix(s, units) == [s[0]] + s[1..];
      assert s == [s[0]] + s[1..];
    }
  }

  /** The card of the result at `position`. */
  function RenderCard(r: Result, position: nat): Card
    requires !RenderFaults(r)
  {
    Card(position, Shown(Get(r, "name")), Shown(Get(r, "father_name")), Shown(Get(r, "mobile")),
         Shown(Get(r, "alt_mobile")), AddressLine(Get(r, "address")), Shown(Get(r, "circle")),
         Shown(Get(r, "id_number")))
  }

  /**
   * What a card shows: its position, each field as text or the placeholder,
   * and a present address as a prefix of it followed by "...".
   */
  lemma RenderCardShows(r: Result, position: nat)
    requires !RenderFaults(r)
    ensures var c := RenderCard(r, position);
            && c.position == position
            && ShowsField(Get(r, "name"), c.name) && ShowsField(Get(r, "father_name"), c.father)
            && ShowsField(Get(r, "mobile"), c.mobile) && ShowsField(Get(r, "alt_mobile"), c.altMobile)
            && ShowsField(Get(r, "circle"), c.circle) && ShowsField(Get(r, "id_number"), c.idNumber)
            && (Truthy(Get(r, "address")) ==>
                  |c.address| >= 3 && StartsWith(Get(r, "address").s, c.address[..|c.address| - 3])
                  && c.address[|c.address| - 3..] == "...")
            && (!Truthy(Get(r, "address")) ==> c.address == NotAvailable)
  {
  }

  /** The cards sent before rendering stopped, and whether it stopped on a fault. */
  datatype Rendered = Rendered(cards: seq<Card>, faulted: bool)

  /** Index of the first result whose rendering throws, or the length when none does. */
  function FirstFault(rs: seq<Result>): (k: nat)
    ensures k <= |rs|
    ensures forall i :: 0 <= i < k ==> !RenderFaults(rs[i])
    ensures k < |rs| ==> RenderFaults(rs[k])
  {
    if |rs| == 0 || RenderFaults(rs[0]) then 0
    else
      var k := FirstFault(rs[1..]);
      assert forall i :: 1 <= i < 1 + k ==> rs[i] == rs[1..][i - 1];
      1 + k
  }

  /**
   * The `forEach` over the shown results: one card per result in order,
   * until the first result whose rendering throws; that result and the ones
   * after it get no card.
   */
  function RenderCards(rs: seq<Result>, first: nat): (out: Rendered)
    ensures out.faulted <==> exists i :: 0 <= i < |rs| && RenderFaults(rs[i])
    ensures |out.cards| <= |rs|
    ensures out.faulted <==> |out.cards| < |rs|
    ensures out.faulted ==> RenderFaults(rs[|out.cards|])
    ensures forall i :: 0 <= i < |out.cards| ==> !RenderFaults(rs[i]) && out.cards[i] == RenderCard(rs[i], first + i)
  {
    var k := FirstFault(rs);
    Rendered(seq(k, i requires 0 <= i < k => RenderCard(rs[i], first + i)), k < |rs|)
  }

  /** `data.result.slice(0, 5)`. */
  function FirstShown(rs: seq<Result>): (shown: seq<Result>)
    ensures |shown| == Min(ShownResults, |rs|)
    ensures shown == rs[..|shown|]
  {
    rs[..Min(ShownResults, |rs|)]
  }

  /** Some result among the first five cannot be rendered. */
  predicate DisplayFaults(rs: seq<Result>) {
    exists i :: 0 <= i < |rs| && i < ShownResults && RenderFaults(rs[i])
  }

  /**
   * The cards of a successful lookup: the first five results numbered from
   * 1, cut short by the first one that cannot be rendered.
   */
  function ShowResults(rs: seq<Result>): (out: Rendered)
    ensures out.faulted <==> DisplayFaults(rs)
    ensures !out.faulted ==> |out.cards| == Min(ShownResults, |rs|)
    ensures out.faulted ==> |out.cards| < ShownResults && |out.cards| < |rs| && RenderFaults(rs[|out.cards|])
    ensures forall i :: 0 <= i < |out.cards| ==> !RenderFaults(rs[i]) && out.cards[i] == RenderCard(rs[i], i + 1)
  {
    var shown := FirstShown(rs);
    var out := RenderCards(shown, 1);
    assert forall i :: 0 <= i < |shown| ==> shown[i] == rs[i];
    out
  }
}

=== FILE: historyview.dfy ===
/**
 * The admin panel's read side: the `/users` and `/history` pages, and the
 * flattening of stored search batches into one table entry per result.
 */
module HistoryView {
  import opened Values
  import opened Store
  import opened Dedup

  /** Rows per page of `/users` and of `/history`. */
  const UsersPerPage := 20
  const HistoryPerPage := 50

  /** One entry of the history table: the row's columns and one result's fields, falsy ones as null. */
  datatype FlatRow = FlatRow(
    rowId: nat, telegramId: UserId, searchNumber: string, searchedAt: int,
    resultId: Value, mobile: Value, name: Value, fatherName: Value, address: Value,
    altMobile: Value, circle: Value, idNumber: Value, email: Value)

  /** `person.<key> || null`; on a non-object element every read is undefined, hence null. */
  function Read(e: Elem, key: string): (v: Value)
    requires !(e.ScalarElem? && e.v == Null)
    ensures e.ObjElem? && Truthy(Get(e.r, key)) ==> v == Get(e.r, key)
    ensures !(e.ObjElem? && Truthy(Get(e.r, key))) ==> v == Null
  {
    if e.ObjElem? then OrNull(Get(e.r, key)) else Null
  }

  function Entry(row: HistoryRow, e: Elem): FlatRow
    requires !(e.ScalarElem? && e.v == Null)
  {
    FlatRow(row.rowId, row.telegramId, row.searchNumber, row.searchedAt,
            Read(e, "id"), Read(e, "mobile"), Read(e, "name"), Read(e, "father_name"), Read(e, "address"),
            Read(e, "alt_mobile"), Read(e, "circle"), Read(e, "id_number"), Read(e, "email"))
  }

  /**
   * The `results.forEach` of one row: an entry per element, until a `null`
   * element, whose `person.id` throws; the entries pushed before it stay.
   */
  function EntriesOf(row: HistoryRow, es: seq<Elem>): (out: seq<FlatRow>)
    ensures |out| <= |es|
    ensures forall i :: 0 <= i < |out| ==> es[i] != ScalarElem(Null) && out[i] == Entry(row, es[i])
    ensures |out| < |es| ==> es[|out|] == ScalarElem(Null)
  {
    if |es| == 0 || es[0] == ScalarElem(Null) then []
    else
      var rest := EntriesOf(row, es[1..]);
      assert forall i :: 1 <= i < 1 + |rest| ==> es[i] == es[1..][i - 1];
      [Entry(row, es[0])] + rest
  }

  /** One stored row: nothing for an empty payload or one that is not a JSON array. */
  function FlattenRow(row: HistoryRow): (out: seq<FlatRow>)
    ensures !row.payload.Items? ==> out == []
    ensures row.payload.Items? ==> out == EntriesOf(row, row.payload.elems)
    ensures forall f :: f in out ==> f.rowId == row.rowId && f.telegramId == row.telegramId
                                      && f.searchNumber == row.searchNumber && f.searchedAt == row.searchedAt
  {
    if row.payload.Items? then EntriesOf(row, row.payload.elems) else []
  }

  /** The rows' entries, row after row, without their properties (they follow in `FlattenRowsSpec`). */
  function FlattenRows(rows: seq<HistoryRow>): seq<FlatRow> {
    if |rows| == 0 then [] else FlattenRow(rows[0]) + FlattenRows(rows[1..])
  }

  lemma {:induction false} FlattenRowsSpec(rows: seq<HistoryRow>)
    ensures forall f :: f in FlattenRows(rows) ==> exists row :: row in rows && f in FlattenRow(row)
    ensures forall row, f :: row in rows && f in FlattenRow(row) ==> f in FlattenRows(rows)
  {
    if |rows| > 0 {
      FlattenRowsSpec(rows[1..]);
      assert forall row :: row in rows[1..] ==> row in rows;
      assert forall row :: row in rows ==> row == rows[0] || row in rows[1..];
    }
  }

  /**
   * The `rawSearches.forEach`: the rows' entries, row after row. A row that
   * contributes nothing (or stops early) does not stop the rows after it.
   */
  function Flatten(rows: seq<HistoryRow>): (out: seq<FlatRow>)
    ensures forall f :: f in out ==> exists row :: row in rows && f in FlattenRow(row)
    ensures forall row, f :: row in rows && f in FlattenRow(row) ==> f in out
    ensures |rows| == 1 ==> out == FlattenRow(rows[0])
  {
    FlattenRowsSpec(rows);
    assert |rows| == 1 ==> FlattenRows(rows[1..]) == [];
    FlattenRows(rows)
  }

  /** Flattening distributes over concatenation, so each page flattens independently. */
  lemma FlattenAppend(a: seq<HistoryRow>, b: seq<HistoryRow>)
    ensures Flatten(a + b) == Flatten(a) + Flatten(b)
  {
    FlattenRowsAppend(a, b);
  }

  lemma {:induction false} FlattenRowsAppend(a: seq<HistoryRow>, b: seq<HistoryRow>)
    ensures FlattenRows(a + b) == FlattenRows(a) + FlattenRows(b)
  {
    if |a| == 0 {
      assert a + b == b;
    } else {
      var ab := a + b;
      assert ab[0] == a[0] && ab[1..] == a[1..] + b;
      FlattenRowsAppend(a[1..], b);
      var head, restA, restB := FlattenRow(a[0]), FlattenRows(a[1..]), FlattenRows(b);
      assert FlattenRows(ab) == head + (restA + restB);
      assert head + (restA + restB) == (head + restA) + restB;
    }
  }

  /**
   * A row the bot wrote shows every stored result as one entry, in order,
   * with the result's id in the id column (or null when it has none).
   */
  lemma WrittenRowFlattens(row: HistoryRow, kept: seq<Result>)
    requires row.payload == Items(AsElems(kept))
    ensures |FlattenRow(row)| == |kept|
    ensures forall i :: 0 <= i < |kept| ==> FlattenRow(row)[i].resultId == OrNull(IdOf(kept[i]))
                                            && FlattenRow(row)[i].name == OrNull(Get(kept[i], "name"))
  {
    var es := AsElems(kept);
    assert forall i :: 0 <= i < |es| ==> es[i] != ScalarElem(Null);
  }

  /** `parseInt(req.query.page) || 1`: a missing, unparsable or zero page is page 1. */
  function PageNumber(page: Option<int>): (p: int)
    ensures p != 0
    ensures page.None? || page.value == 0 ==> p == 1
    ensures page.Some? && page.value != 0 ==> p == page.value
  {
    if page.Some? && page.value != 0 then page.value else 1
  }

  /** `(page - 1) * limit`, with SQLite reading a negative OFFSET as 0. */
  function Offset(page: Option<int>, limit: nat): (off: nat)
    ensures PageNumber(page) >= 1 ==> off == (PageNumber(page) - 1) * limit
    ensures PageNumber(page) < 1 ==> off == 0
  {
    var o := (PageNumber(page) - 1) * limit;
    if o < 0 then 0 else o
  }

  /** `LIMIT limit OFFSET offset` over a listing in display order. */
  function Page<T>(xs: seq<T>, page: Option<int>, limit: nat): (out: seq<T>)
    ensures |out| <= limit
    ensures Offset(page, limit) <= |xs| ==> out == xs[Offset(page, limit)..Min(Offset(page, limit) + limit, |xs|)]
    ensures Offset(page, limit) >= |xs| ==> out == []
  {
    var off := Offset(page, limit);
    if off >= |xs| then [] else xs[off..Min(off + limit, |xs|)]
  }

  /** `Math.ceil(count / limit)`: the fewest pages of `limit` rows holding `count` rows. */
  function TotalPages(count: nat, limit: nat): (n: nat)
    requires limit > 0
    ensures n * limit >= count
    ensures n == 0 || (n - 1) * limit < count
  {
    (count + limit - 1) / limit
  }

  /** Pages 1 to k, one after the other. */
  function PagesUpTo<T>(xs: seq<T>, limit: nat, k: nat): seq<T> {
    if k == 0 then [] else PagesUpTo(xs, limit, k - 1) + Page(xs, Some(k), limit)
  }

  /** The first k pages are the first k * limit rows. */
  lemma {:induction false} PagesUpToPrefix<T>(xs: seq<T>, limit: nat, k: nat)
    ensures PagesUpTo(xs, limit, k) == xs[..Min(k * limit, |xs|)]
  {
    if k > 0 {
      PagesUpToPrefix(xs, limit, k - 1);
      assert PageNumber(Some(k)) == k;
      var a := Min((k - 1) * limit, |xs|);
      var b := Min(k * limit, |xs|);
      assert k * limit == (k - 1) * limit + limit;
      assert xs[..b] == xs[..a] + xs[a..b];
    }
  }

  /**
   * The page links cover the listing exactly: pages 1 to `TotalPages` laid
   * end to end are the whole listing, each row on one page, in order.
   */
  lemma PagesPartition<T>(xs: seq<T>, limit: nat)
    requires limit > 0
    ensures PagesUpTo(xs, limit, TotalPages(|xs|, limit)) == xs
    ensures forall p :: p > TotalPages(|xs|, limit) ==> Page(xs, Some(p), limit) == []
  {
    var n := TotalPages(|xs|, limit);
    PagesUpToPrefix(xs, limit, n);
    assert Min(n * limit, |xs|) == |xs|;
    forall p | p > n
      ensures Page(xs, Some(p), limit) == []
    {
      MulMonotone(n, p - 1, limit);
    }
  }

  lemma MulMonotone(a: nat, b: nat, c: nat)
    requires a <= b
    ensures a * c <= b * c
  {
  }

  /**
   * `ids` lists every user of the table once, newest registration first: the
   * order `ORDER BY registered_at DESC` reads them in (ties in any order).
   */
  predicate ListsUsers(s: Store, ids: seq<UserId>) {
    && |ids| == |s.users|
    && (forall u :: u in s.users ==> u in ids)
    && (forall i :: 0 <= i < |ids| ==> ids[i] in s.users)
    && forall i, j :: 0 <= i < j < |ids| ==> s.users[ids[i]].registeredAt >= s.users[ids[j]].registeredAt
  }

  /** The `/users` page: 20 users of the table in listing order, and the page count over the table. */
  function UsersPage(s: Store, ids: seq<UserId>, page: Option<int>): (r: (seq<User>, nat))
    requires ListsUsers(s, ids)
    ensures |r.0| <= UsersPerPage
    ensures forall u :: u in r.0 ==> u in s.users.Values
    ensures var off := Offset(page, UsersPerPage);
            && |r.0| == (if off < |ids| then Min(off + UsersPerPage, |ids|) - off else 0)
            && forall i :: 0 <= i < |r.0| ==> off + i < |ids| && r.0[i] == s.users[ids[off + i]]
    ensures r.1 * UsersPerPage >= |s.users| && (r.1 == 0 || (r.1 - 1) * UsersPerPage < |s.users|)
  {
    var listing := seq(|ids|, i requires 0 <= i < |ids| => s.users[ids[i]]);
    PageWithin(listing, page, UsersPerPage);
    (Page(listing, page, UsersPerPage), TotalPages(|ids|, UsersPerPage))
  }

  /** Newest first: the history in reverse insertion order. */
  function Newest(h: seq<HistoryRow>): (r: seq<HistoryRow>)
    ensures |r| == |h| && forall i :: 0 <= i < |h| ==> r[i] == h[|h| - 1 - i]
  {
    seq(|h|, i requires 0 <= i < |h| => h[|h| - 1 - i])
  }

  /** A page holds rows of the listing only. */
  lemma PageWithin<T>(xs: seq<T>, page: Option<int>, limit: nat)
    ensures forall x :: x in Page(xs, page, limit) ==> x in xs
  {
    var p := Page(xs, page, limit);
    forall x | x in p
      ensures x in xs
    {
      var i :| 0 <= i < |p| && p[i] == x;
      assert x == xs[Offset(page, limit) + i];
    }
  }

  /**
   * `ORDER BY searched_at DESC`: rows stored in time order come out latest
   * first (rows with equal times keep no particular order in the program).
   */
  lemma NewestLatestFirst(h: seq<HistoryRow>)
    requires forall i, j :: 0 <= i < j < |h| ==> h[i].searchedAt <= h[j].searchedAt
    ensures forall i, j :: 0 <= i < j < |h| ==> Newest(h)[i].searchedAt >= Newest(h)[j].searchedAt
  {
  }

  /** Listing newest first twice gives back the stored order: nothing is lost or repeated. */
  lemma NewestTwice(h: seq<HistoryRow>)
    ensures Newest(Newest(h)) == h
  {
  }

  /** Newest first lists the stored rows only. */
  lemma NewestWithin(h: seq<HistoryRow>)
    ensures forall row :: row in Newest(h) ==> row in h
  {
    forall row | row in Newest(h)
      ensures row in h
    {
      var i :| 0 <= i < |h| && Newest(h)[i] == row;
      assert row == h[|h| - 1 - i];
    }
  }

  /**
   * The `/history` page: 50 stored rows, newest first, flattened; the page
   * count is over rows, not over the entries they flatten to.
   */
  function HistoryPage(s: Store, page: Option<int>): (r: (seq<FlatRow>, nat))
    ensures forall f :: f in r.0 ==> exists row :: row in s.history && f in FlattenRow(row)
    ensures var off := Offset(page, HistoryPerPage);
            var h := Newest(s.history);
            r.0 == if off < |h| then Flatten(h[off..Min(off + HistoryPerPage, |h|)]) else []
    ensures r.1 * HistoryPerPage >= |s.history| && (r.1 == 0 || (r.1 - 1) * HistoryPerPage < |s.history|)
  {
    var h := Newest(s.history);
    var rows := Page(h, page, HistoryPerPage);
    PageWithin(h, page, HistoryPerPage);
    NewestWithin(s.history);
    (Flatten(rows), TotalPages(|s.history|, HistoryPerPage))
  }
}

=== FILE: jsontext.dfy ===
/**
 * The text the bot stores in `response_data` (JSON.stringify of the new
 * results) and the duplicate check it actually performs on that text:
 * `response_data LIKE '%"id":<id>,%'`. This is the check as written; module
 * Dedup states the check on decoded ids, which is what the rest of the model
 * uses. The lemmas below show where the two agree (a numeric id that is not
 * the last key of its object) and three inputs on which they disagree.
 */
module JsonText {
  import opened Values
  import opened Store
  import opened Dedup

  function HexDigit(d: int): char
    requires 0 <= d < 16
  {
    "0123456789abcdef"[d]
  }

  /** How JSON.stringify writes one character inside a string literal. */
  function EscapeChar(c: char): string {
    if c == '"' then "\\\""
    else if c == '\\' then "\\\\"
    else if c == '\n' then "\\n"
    else if c == '\r' then "\\r"
    else if c == '\t' then "\\t"
    else if c as int == 8 then "\\b"
    else if c as int == 12 then "\\f"
    else if c as int < 0x20 then "\\u00" + [HexDigit(c as int / 16), HexDigit(c as int % 16)]
    else [c]
  }

  function EscapeText(s: string): string {
    if |s| == 0 then "" else EscapeChar(s[0]) + EscapeText(s[1..])
  }

  /** A character JSON.stringify writes as itself. */
  predicate Plain(c: char) {
    c != '"' && c != '\\' && c as int >= 0x20
  }

  /** Text made of plain characters is written unchanged. */
  lemma {:induction false} EscapePlain(s: string)
    requires forall i :: 0 <= i < |s| ==> Plain(s[i])
    ensures EscapeText(s) == s
  {
    if |s| > 0 {
      EscapePlain(s[1..]);
      assert s == [s[0]] + s[1..];
    }
  }

  /** A JSON string literal. */
  function Quote(s: string): string {
    "\"" + EscapeText(s) + "\""
  }

  function ValueText(v: Value): string {
    match v
    case Null => "null"
    case Bool(b) => if b then "true" else "false"
    case Num(n) => NumText(n)
    case Str(s) => Quote(s)
  }

  /** Pieces joined with commas, as JSON.stringify separates members and elements. */
  function Join(parts: seq<string>): string {
    if |parts| == 0 then ""
    else if |parts| == 1 then parts[0]
    else parts[0] + "," + Join(parts[1..])
  }

  function FieldText(f: Field): string {
    Quote(f.key) + ":" + ValueText(f.val)
  }

  function ObjectText(r: Result): string {
    "{" + Join(seq(|r.fields|, i requires 0 <= i < |r.fields| => FieldText(r.fields[i]))) + "}"
  }

  function ElemText(e: Elem): string {
    match e
    case ObjElem(r) => ObjectText(r)
    case ScalarElem(v) => ValueText(v)
  }

  function ArrayText(es: seq<Elem>): string {
    "[" + Join(seq(|es|, i requires 0 <= i < |es| => ElemText(es[i]))) + "]"
  }

  /** The `response_data` column's text. */
  function StoredText(p: Payload): string {
    match p
    case Blank => ""
    case Opaque(t) => t
    case Items(es) => ArrayText(es)
  }

  /** The sixteen hexadecimal digits are sixteen different characters. */
  lemma HexDigitInjective(a: int, b: int)
    requires 0 <= a < 16 && 0 <= b < 16
    requires HexDigit(a) == HexDigit(b)
    ensures a == b
  {
    var digits := "0123456789abcdef";
    assert forall i, j :: 0 <= i < j < 16 ==> digits[i] != digits[j];
  }

  /** A plain character is written as itself, and any other as an escape starting with a backslash. */
  lemma EscapeCharSpec(c: char)
    ensures EscapeChar(c) == [c] <==> Plain(c)
    ensures !Plain(c) ==> |EscapeChar(c)| >= 2 && EscapeChar(c)[0] == '\\'
  {
  }

  /** A control character without a short escape is written as `\u00` and two hex digits. */
  predicate HexEscaped(c: char) {
    c as int < 0x20 && c != '\n' && c != '\r' && c != '\t' && c as int != 8 && c as int != 12
  }

  lemma HexEscapeDigits(c: char)
    requires HexEscaped(c)
    ensures |EscapeChar(c)| == 6
    ensures EscapeChar(c)[4] == HexDigit(c as int / 16) && EscapeChar(c)[5] == HexDigit(c as int % 16)
  {
  }

  /** No two characters are written alike, so the escaped text reads back to the characters it came from. */
  lemma EscapeCharInjective(c: char, d: char)
    requires EscapeChar(c) == EscapeChar(d)
    ensures c == d
  {
    EscapeCharSpec(c);
    EscapeCharSpec(d);
    if HexEscaped(c) {
      HexEscapeDigits(c);
      assert HexEscaped(d);
      HexEscapeDigits(d);
      HexDigitInjective(c as int / 16, d as int / 16);
      HexDigitInjective(c as int % 16, d as int % 16);
    } else if HexEscaped(d) {
      HexEscapeDigits(d);
    }
  }

  /**
   * An object is written between braces, holding each field's `"key":value`
   * text, and every field but the last is followed by a comma.
   */
  lemma ObjectTextSpec(r: Result)
    ensures var t := ObjectText(r);
            |t| >= 2 && t[0] == '{' && t[|t| - 1] == '}'
    ensures forall i :: 0 <= i < |r.fields| ==> Contains(ObjectText(r), FieldText(r.fields[i]))
    ensures forall i :: 0 <= i < |r.fields| - 1 ==> Contains(ObjectText(r), FieldText(r.fields[i]) + ",")
  {
    var parts := seq(|r.fields|, i requires 0 <= i < |r.fields| => FieldText(r.fields[i]));
    ContainsMiddle("{", Join(parts), "}");
    forall i | 0 <= i < |r.fields|
      ensures Contains(ObjectText(r), FieldText(r.fields[i]))
    {
      JoinHasPiece(parts, i);
      ContainsTrans(ObjectText(r), Join(parts), parts[i]);
    }
    forall i | 0 <= i < |r.fields| - 1
      ensures Contains(ObjectText(r), FieldText(r.fields[i]) + ",")
    {
      JoinHasPieceAndComma(parts, i);
      ContainsTrans(ObjectText(r), Join(parts), parts[i] + ",");
    }
  }

  /**
   * The `response_data` text: empty for a blank row, the text itself when it
   * is not an array the bot wrote, and otherwise an array between brackets
   * holding each element's text.
   */
  lemma StoredTextSpec(p: Payload)
    ensures p.Blank? ==> StoredText(p) == ""
    ensures p.Opaque? ==> StoredText(p) == p.text
    ensures p.Items? ==> var t := StoredText(p);
                         |t| >= 2 && t[0] == '[' && t[|t| - 1] == ']'
    ensures p.Items? ==> forall i :: 0 <= i < |p.elems| ==> Contains(StoredText(p), ElemText(p.elems[i]))
  {
    if p.Items? {
      var es := p.elems;
      var parts := seq(|es|, i requires 0 <= i < |es| => ElemText(es[i]));
      ContainsMiddle("[", Join(parts), "]");
      forall i | 0 <= i < |es|
        ensures Contains(StoredText(p), ElemText(es[i]))
      {
        JoinHasPiece(parts, i);
        ContainsTrans(StoredText(p), Join(parts), parts[i]);
      }
    }
  }

  /** The LIKE pattern's fixed part for an id: `"id":<String(id)>,`. */
  function LikePattern(id: Value): string {
    "\"id\":" + JsString(id) + ","
  }

  /**
   * The lookup as written: some row of the user whose stored text contains the
   * pattern.
   */
  predicate LikeSeen(history: seq<HistoryRow>, user: UserId, id: Value) {
    exists row :: row in history && row.telegramId == user && Contains(StoredText(row.payload), LikePattern(id))
  }

  /** The `newResults` loop as written, with the text lookup. */
  function NewResultsAsWritten(history: seq<HistoryRow>, user: UserId, rs: seq<Result>): (kept: seq<Result>)
    ensures forall r :: r in kept ==> r in rs && (!Truthy(IdOf(r)) || !LikeSeen(history, user, IdOf(r)))
    ensures forall r :: r in rs && (!Truthy(IdOf(r)) || !LikeSeen(history, user, IdOf(r))) ==> r in kept
    ensures Subsequence(kept, rs)
  {
    if |rs| == 0 then []
    else
      var rest := NewResultsAsWritten(history, user, rs[1..]);
      assert forall r :: r in rs ==> r == rs[0] || r in rs[1..];
      if !Truthy(IdOf(rs[0])) || !LikeSeen(history, user, IdOf(rs[0])) then [rs[0]] + rest else rest
  }

  lemma AsWrittenSingle(history: seq<HistoryRow>, user: UserId, r: Result)
    ensures NewResultsAsWritten(history, user, [r]) ==
              if !Truthy(IdOf(r)) || !LikeSeen(history, user, IdOf(r)) then [r] else []
  {
    assert [r][1..] == [];
    assert NewResultsAsWritten(history, user, [r][1..]) == [];
  }

  /** The loop walks the results in order: a response laid end to end is filtered part by part. */
  lemma {:induction false} AsWrittenAppend(history: seq<HistoryRow>, user: UserId, a: seq<Result>, b: seq<Result>)
    ensures NewResultsAsWritten(history, user, a + b) ==
            NewResultsAsWritten(history, user, a) + NewResultsAsWritten(history, user, b)
  {
    if |a| == 0 {
      assert a + b == b;
    } else {
      assert (a + b)[1..] == a[1..] + b;
      AsWrittenAppend(history, user, a[1..], b);
    }
  }

  /**
   * Wherever the text match and the decoded-id check agree on the ids of a
   * response, the loop as written keeps exactly what the intended writer keeps,
   * in the same order and with the same repeats.
   */
  lemma {:induction false} AsWrittenAgrees(history: seq<HistoryRow>, user: UserId, rs: seq<Result>)
    requires forall r :: r in rs && Truthy(IdOf(r)) ==> (LikeSeen(history, user, IdOf(r)) <==> Seen(history, user, IdOf(r)))
    ensures NewResultsAsWritten(history, user, rs) == NewResults(history, user, rs)
  {
    AsWrittenIsKeepNew(history, user, rs);
  }

  lemma {:induction false} AsWrittenIsKeepNew(history: seq<HistoryRow>, user: UserId, rs: seq<Result>)
    requires forall r :: r in rs && Truthy(IdOf(r)) ==> (LikeSeen(history, user, IdOf(r)) <==> Seen(history, user, IdOf(r)))
    ensures NewResultsAsWritten(history, user, rs) == KeepNew(history, user, rs)
  {
    if |rs| > 0 {
      assert forall r :: r in rs[1..] ==> r in rs;
      AsWrittenIsKeepNew(history, user, rs[1..]);
    }
  }

  /** Every piece but the last is followed by a comma in the joined text. */
  lemma {:induction false} JoinHasPieceAndComma(parts: seq<string>, i: nat)
    requires i < |parts| - 1
    ensures Contains(Join(parts), parts[i] + ",")
  {
    var rest := Join(parts[1..]);
    assert Join(parts) == parts[0] + "," + rest;
    if i == 0 {
      ContainsMiddle("", parts[0] + ",", rest);
      assert "" + (parts[0] + ",") + rest == Join(parts);
    } else {
      JoinHasPieceAndComma(parts[1..], i - 1);
      ContainsMiddle(parts[0] + ",", rest, "");
      assert parts[0] + "," + rest + "" == Join(parts);
      ContainsTrans(Join(parts), rest, parts[i] + ",");
    }
  }

  /** Every piece occurs in the joined text. */
  lemma {:induction false} JoinHasPiece(parts: seq<string>, i: nat)
    requires i < |parts|
    ensures Contains(Join(parts), parts[i])
  {
    if i < |parts| - 1 {
      JoinHasPieceAndComma(parts, i);
      ContainsMiddle("", parts[i], ",");
      assert "" + parts[i] + "," == parts[i] + ",";
      ContainsTrans(Join(parts), parts[i] + ",", parts[i]);
    } else if |parts| == 1 {
      ContainsMiddle("", parts[0], "");
      assert "" + parts[0] + "" == Join(parts);
    } else {
      JoinHasPiece(parts[1..], i - 1);
      ContainsMiddle(parts[0] + ",", Join(parts[1..]), "");
      assert parts[0] + "," + Join(parts[1..]) + "" == Join(parts);
      ContainsTrans(Join(parts), Join(parts[1..]), parts[i]);
    }
  }

  /**
   * Where the two checks agree: a stored numeric id followed by another key is
   * found by the text lookup.
   */
  lemma NumericIdBeforeLastKeyIsMatched(history: seq<HistoryRow>, user: UserId, row: HistoryRow, r: Result, k: nat, n: int)
    requires row in history && row.telegramId == user
    requires row.payload.Items? && ObjElem(r) in row.payload.elems
    requires k < |r.fields| - 1 && r.fields[k] == Field("id", Num(n))
    ensures LikeSeen(history, user, Num(n))
  {
    var es := row.payload.elems;
    var fieldParts := seq(|r.fields|, i requires 0 <= i < |r.fields| => FieldText(r.fields[i]));
    var elemParts := seq(|es|, i requires 0 <= i < |es| => ElemText(es[i]));
    assert EscapeText("id") == "id";
    assert fieldParts[k] + "," == LikePattern(Num(n));
    JoinHasPieceAndComma(fieldParts, k);
    ContainsMiddle("{", Join(fieldParts), "}");
    ContainsTrans(ObjectText(r), Join(fieldParts), LikePattern(Num(n)));
    var j :| 0 <= j < |es| && es[j] == ObjElem(r);
    JoinHasPiece(elemParts, j);
    ContainsMiddle("[", Join(elemParts), "]");
    ContainsTrans(StoredText(row.payload), Join(elemParts), ObjectText(r));
    ContainsTrans(StoredText(row.payload), ObjectText(r), LikePattern(Num(n)));
  }

  /**
   * Where they disagree, first case: a numeric id in the last key. The earlier
   * row `[{"id":7}]` holds id 7, but its text has `"id":7}` and no `"id":7,`,
   * so the same result is stored again.
   */
  lemma LastKeyIdStoredAgain(user: UserId)
    ensures var r := Result([Field("id", Num(7))]);
            var history := [HistoryRow(1, user, "9876543210", Items([ObjElem(r)]), 0)];
            && Seen(history, user, Num(7))
            && !LikeSeen(history, user, Num(7))
            && NewResults(history, user, [r]) == []
            && NewResultsAsWritten(history, user, [r]) == [r]
  {
    var r := Result([Field("id", Num(7))]);
    var row := HistoryRow(1, user, "9876543210", Items([ObjElem(r)]), 0);
    var history := [row];
    assert IdOf(r) == Num(7);
    assert RowHolds(row, Num(7)) by {
      assert ObjElem(r) in row.payload.elems;
    }
    assert row in history;
    LastKeyExampleText(r);
    LastKeyExampleNoMatch();
    assert LikePattern(Num(7)) == "\"id\":7,";
    assert forall x :: x in history ==> x == row;
    assert !LikeSeen(history, user, Num(7));
    NewResultsSingle(history, user, r);
    AsWrittenSingle(history, user, r);
  }

  /** The stored text of the last-key example. */
  lemma LastKeyExampleText(r: Result)
    requires r == Result([Field("id", Num(7))])
    ensures StoredText(Items([ObjElem(r)])) == "[{\"id\":7}]"
  {
    var f0 := FieldText(r.fields[0]);
    SevenField();
    var parts := seq(|r.fields|, i requires 0 <= i < |r.fields| => FieldText(r.fields[i]));
    assert parts == [f0];
    var obj := ObjectText(r);
    assert obj == "{" + f0 + "}";
    var elems := seq(1, i requires 0 <= i < 1 => ElemText([ObjElem(r)][i]));
    assert elems == [obj];
    assert StoredText(Items([ObjElem(r)])) == "[" + obj + "]";
    SevenObjectLiteral();
  }

  lemma SevenField()
    ensures FieldText(Field("id", Num(7))) == "\"id\":7"
  {
    assert NumText(7) == "7";
    assert EscapeText("id") == "id";
  }

  lemma SevenObjectLiteral()
    ensures "[" + ("{" + "\"id\":7" + "}") + "]" == "[{\"id\":7}]"
  {
  }

  /** The pattern ends in a comma, and the text has a brace after the 7. */
  lemma LastKeyExampleNoMatch()
    ensures !Contains("[{\"id\":7}]", "\"id\":7,")
  {
    var text := "[{\"id\":7}]";
    var pat := "\"id\":7,";
    forall i | 0 <= i <= |text|
      ensures !OccursAt(text, pat, i)
    {
      if i + |pat| <= |text| {
        assert text[i..i + |pat|][6] == text[i + 6];
      }
    }
  }

  /** A key/text pair of plain characters is written as `"key":"text"`. */
  lemma PlainTextField(k: string, v: string)
    requires forall i :: 0 <= i < |k| ==> Plain(k[i])
    requires forall i :: 0 <= i < |v| ==> Plain(v[i])
    ensures FieldText(Field(k, Str(v))) == "\"" + k + "\":\"" + v + "\""
  {
    EscapePlain(k);
    EscapePlain(v);
  }

  lemma IdFieldLiteral()
    ensures "[" + ("{" + ("\"" + "id" + "\":\"" + "A7" + "\"") + "}") + "]" == "[{\"id\":\"A7\"}]"
  {
  }

  /** The stored text of the string-id example. */
  lemma StringIdExampleText(r: Result)
    requires r == Result([Field("id", Str("A7"))])
    ensures StoredText(Items([ObjElem(r)])) == "[{\"id\":\"A7\"}]"
  {
    PlainTextField("id", "A7");
    var f0 := FieldText(r.fields[0]);
    var parts := seq(|r.fields|, i requires 0 <= i < |r.fields| => FieldText(r.fields[i]));
    assert parts == [f0];
    var obj := ObjectText(r);
    assert obj == "{" + f0 + "}";
    var elems := seq(1, i requires 0 <= i < 1 => ElemText([ObjElem(r)][i]));
    assert elems == [obj];
    assert StoredText(Items([ObjElem(r)])) == "[" + obj + "]";
    IdFieldLiteral();
  }

  /** The unquoted pattern ends in a comma, and the one-key text has none. */
  lemma StringIdExampleNoMatch()
    ensures !Contains("[{\"id\":\"A7\"}]", "\"id\":A7,")
  {
    var text := "[{\"id\":\"A7\"}]";
    var pat := "\"id\":A7,";
    forall i | 0 <= i <= |text|
      ensures !OccursAt(text, pat, i)
    {
      if i + |pat| <= |text| {
        assert text[i..i + |pat|][7] == text[i + 7];
      }
    }
  }

  /**
   * Second case: a string id. The pattern holds the id unquoted
   * (`"id":A7,`) while the stored text quotes it (`"id":"A7"`), so the
   * string id "A7" is not found and is stored again on every search.
   */
  lemma StringIdStoredAgain(user: UserId)
    ensures var r := Result([Field("id", Str("A7"))]);
            var history := [HistoryRow(1, user, "9876543210", Items([ObjElem(r)]), 0)];
            && Seen(history, user, Str("A7"))
            && !LikeSeen(history, user, Str("A7"))
            && NewResults(history, user, [r]) == []
            && NewResultsAsWritten(history, user, [r]) == [r]
  {
    var r := Result([Field("id", Str("A7"))]);
    var row := HistoryRow(1, user, "9876543210", Items([ObjElem(r)]), 0);
    var history := [row];
    assert IdOf(r) == Str("A7");
    assert RowHolds(row, Str("A7")) by {
      assert ObjElem(r) in row.payload.elems;
    }
    assert row in history;
    StringIdExampleText(r);
    StringIdExampleNoMatch();
    assert LikePattern(Str("A7")) == "\"id\":A7,";
    assert forall x :: x in history ==> x == row;
    assert !LikeSeen(history, user, Str("A7"));
    AsWrittenSingle(history, user, r);
  }

  /**
   * Where they disagree, the other direction: the string id "7" prints as the
   * numeric id 7 does, so an earlier row holding the number 7 before another
   * key makes the text match take the string id for a stored one. No row
   * holds the string "7", and the result is never stored.
   */
  lemma StringSevenDropped(user: UserId)
    ensures var held := Result([Field("id", Num(7)), Field("name", Str("A"))]);
            var r := Result([Field("id", Str("7"))]);
            var history := [HistoryRow(1, user, "9876543210", Items([ObjElem(held)]), 0)];
            && !Seen(history, user, Str("7"))
            && LikeSeen(history, user, Str("7"))
            && NewResults(history, user, [r]) == [r]
            && NewResultsAsWritten(history, user, [r]) == []
  {
    var held := Result([Field("id", Num(7)), Field("name", Str("A"))]);
    var r := Result([Field("id", Str("7"))]);
    var row := HistoryRow(1, user, "9876543210", Items([ObjElem(held)]), 0);
    var history := [row];
    assert IdOf(held) == Num(7) && IdOf(r) == Str("7");
    assert !RowHolds(row, Str("7")) by {
      assert forall e :: e in row.payload.elems ==> e == ObjElem(held);
    }
    assert forall x :: x in history ==> x == row;
    assert !Seen(history, user, Str("7"));
    assert row in history;
    NumericIdBeforeLastKeyIsMatched(history, user, row, held, 0, 7);
    assert LikePattern(Str("7")) == LikePattern(Num(7));
    assert LikeSeen(history, user, Str("7"));
    NewResultsSingle(history, user, r);
    AsWrittenSingle(history, user, r);
  }
}

=== FILE: registration.dfy ===
/**
 * First contact and returning contact (the `/start` command): a new user
 * gets 10 credits and a referral code of their own; a valid code of an
 * existing user raises that to 15 and pays the referrer 5.
 */
module Registration {
  import opened Values
  import opened Store

  const BaseCredits := 10
  const ReferredCredits := 15
  const ReferrerBonus := 5

  /** `generateReferralCode`: "REF" followed by the telegram id. */
  function ReferralCodeFor(id: UserId): (code: string)
    ensures StartsWith(code, "REF") && code[3..] == id
  {
    "REF" + id
  }

  /** Distinct users get distinct codes, which is what the UNIQUE column relies on. */
  lemma ReferralCodeInjective(a: UserId, b: UserId)
    ensures ReferralCodeFor(a) == ReferralCodeFor(b) ==> a == b
  {
  }

  /** Every user's referral code is the one generated from their own id. */
  predicate CodesCanonical(s: Store) {
    forall u :: u in s.users ==> s.users[u].referralCode == ReferralCodeFor(u)
  }

  /**
   * The referrer a `/start` code names: only a code starting with "REF" is
   * looked up, and it names the user whose stored code it is. The lookup
   * inverts the generated form of the code.
   */
  function FindReferrer(s: Store, code: string): (r: Option<UserId>)
    ensures r.Some? ==> StartsWith(code, "REF") && r.value in s.users && s.users[r.value].referralCode == code
    ensures CodesCanonical(s) && StartsWith(code, "REF") ==>
              forall u :: u in s.users && s.users[u].referralCode == code ==> r == Some(u)
  {
    if StartsWith(code, "REF") && code[3..] in s.users && s.users[code[3..]].referralCode == code
    then Some(code[3..])
    else None
  }

  /** The profile as stored: absent or empty names become null. */
  function StoredProfile(p: Profile): Profile {
    Profile(Nullify(p.username), Nullify(p.firstName), Nullify(p.lastName))
  }

  /** What `registerUser` reports to the welcome message. */
  datatype Registered = Registered(isNew: bool, usedReferral: bool, referralBonus: int)

  datatype Registration = Registration(store: Store, info: Registered)

  /** The referrer's side of a referral: +5 credits, one more referral, one referral row. */
  function GrantReferral(s: Store, referrer: UserId, referred: UserId): (s': Store)
    requires referrer in s.users
    ensures s'.users.Keys == s.users.Keys && s'.history == s.history && s'.nextRowId == s.nextRowId
    ensures s'.users[referrer] == s.users[referrer].(balance := s.users[referrer].balance + ReferrerBonus,
                                                     totalReferrals := s.users[referrer].totalReferrals + 1)
    ensures forall u :: u in s.users && u != referrer ==> s'.users[u] == s.users[u]
    ensures s'.referrals == s.referrals + {Referral(referrer, referred)}
  {
    var u := s.users[referrer];
    s.(users := s.users[referrer := u.(balance := u.balance + ReferrerBonus, totalReferrals := u.totalReferrals + 1)],
       referrals := s.referrals + {Referral(referrer, referred)})
  }

  /**
   * `registerUser(user, referralCode)`, with the code already trimmed (`""`
   * when none was given). The referral row is a set element, so inserting
   * the same pair again is the swallowed duplicate of the source.
   */
  function RegisterUser(s: Store, id: UserId, p: Profile, code: string, now: int): (r: Registration)
    // a returning user: only the profile and last-active change
    ensures id in s.users ==> !r.info.isNew && !r.info.usedReferral && r.info.referralBonus == 0
    ensures id in s.users ==>
              && r.store.users.Keys == s.users.Keys
              && r.store.referrals == s.referrals
              && r.store.history == s.history
              && r.store.nextRowId == s.nextRowId
              && r.store.users[id] == s.users[id].(profile := StoredProfile(p), lastActive := now)
              && (forall u :: u in s.users && u != id ==> r.store.users[u] == s.users[u])
    // a new user
    ensures id !in s.users ==>
              && r.info.isNew
              && r.store.users.Keys == s.users.Keys + {id}
              && r.store.history == s.history
              && r.store.nextRowId == s.nextRowId
              && r.store.users[id] == User(StoredProfile(p), BaseCredits + r.info.referralBonus, ReferralCodeFor(id),
                                           FindReferrer(s, code), 0, false, None, None, now, now)
              && (r.info.usedReferral <==> FindReferrer(s, code).Some?)
              && r.info.referralBonus == (if r.info.usedReferral then ReferredCredits - BaseCredits else 0)
    // the referrer, and nobody else, is paid
    ensures id !in s.users && FindReferrer(s, code).Some? ==>
              var referrer := FindReferrer(s, code).value;
              && r.store.users[referrer] == s.users[referrer].(balance := s.users[referrer].balance + ReferrerBonus,
                                                               totalReferrals := s.users[referrer].totalReferrals + 1)
              && r.store.referrals == s.referrals + {Referral(referrer, id)}
              && (forall u :: u in s.users && u != referrer ==> r.store.users[u] == s.users[u])
    ensures id !in s.users && FindReferrer(s, code).None? ==>
              && r.store.referrals == s.referrals
              && (forall u :: u in s.users ==> r.store.users[u] == s.users[u])
  {
    if id in s.users then
      var u := s.users[id].(profile := StoredProfile(p), lastActive := now);
      Registration(s.(users := s.users[id := u]), Registered(false, false, 0))
    else
      var referrer := FindReferrer(s, code);
      var s1 := if referrer.Some? then GrantReferral(s, referrer.value, id) else s;
      var credits := if referrer.Some? then ReferredCredits else BaseCredits;
      var user := User(StoredProfile(p), credits, ReferralCodeFor(id), referrer, 0, false, None, None, now, now);
      Registration(s1.(users := s1.users[id := user]), Registered(true, referrer.Some?, credits - BaseCredits))
  }

  /**
   * Registration keeps balances non-negative and referral codes canonical.
   */
  lemma RegisterPreservesLedger(s: Store, id: UserId, p: Profile, code: string, now: int)
    requires BalancesNonNegative(s) && CodesCanonical(s)
    ensures BalancesNonNegative(RegisterUser(s, id, p, code, now).store)
    ensures CodesCanonical(RegisterUser(s, id, p, code, now).store)
  {
  }

  /**
   * Processing the same registration twice pays the referral once: the second
   * call finds a returning user and leaves every balance, every referral
   * count and the referral rows as the first call left them.
   */
  lemma RegisterTwicePaysOnce(s: Store, id: UserId, p: Profile, p2: Profile, code: string, code2: string, t1: int, t2: int)
    ensures var r1 := RegisterUser(s, id, p, code, t1);
            var r2 := RegisterUser(r1.store, id, p2, code2, t2);
            && !r2.info.isNew
            && r2.store.referrals == r1.store.referrals
            && r2.store.users.Keys == r1.store.users.Keys
            && (forall u :: u in r2.store.users ==>
                  r2.store.users[u].balance == r1.store.users[u].balance
                  && r2.store.users[u].totalReferrals == r1.store.users[u].totalReferrals
                  && r2.store.users[u].referredBy == r1.store.users[u].referredBy)
  {
  }

  /**
   * A referral through an existing user's code, on a store whose codes are
   * canonical: 15 credits for the newcomer, +5 and one more referral for the
   * referrer, exactly the pair (referrer, newcomer) added to the referral
   * rows, and 5 more credits in the referrer's referral earnings.
   */
  lemma ReferralScenario(s: Store, a: UserId, b: UserId, p: Profile, now: int)
    requires CodesCanonical(s) && a in s.users && b !in s.users
    ensures var r := RegisterUser(s, b, p, ReferralCodeFor(a), now);
            && r.store.users[b].balance == 15
            && r.store.users[b].referredBy == Some(a)
            && r.store.users[a].balance == s.users[a].balance + 5
            && r.store.users[a].totalReferrals == s.users[a].totalReferrals + 1
            && r.store.referrals - s.referrals <= {Referral(a, b)}
            && Referral(a, b) in r.store.referrals
            && (Referral(a, b) !in s.referrals ==> ReferralEarnings(r.store, a) == ReferralEarnings(s, a) + ReferrerBonus)
  {
    var r := RegisterUser(s, b, p, ReferralCodeFor(a), now);
    if Referral(a, b) !in s.referrals {
      ReferralEarningsAdd(s, r.store, a, b);
    }
  }
}

=== FILE: store.dfy ===
/**
 * The bot's database as abstract tables: users keyed by telegram id, the set
 * of referral pairs and the search-history rows in insertion order, together
 * with the credit ledger operations the message handler performs on them.
 */
module Store {
  import opened Values

  /** A telegram id, in the decimal text form the tables store it in. */
  type UserId = string

  /** Display-name fields as stored (`|| null` already applied). */
  datatype Profile = Profile(username: Option<string>, firstName: Option<string>, lastName: Option<string>)

  /** One row of the `users` table. Timestamps are abstract clock readings. */
  datatype User = User(
    profile: Profile,
    balance: int,
    referralCode: string,
    referredBy: Option<UserId>,
    totalReferrals: nat,
    isBanned: bool,
    bannedAt: Option<int>,
    bannedReason: Option<string>,
    registeredAt: int,
    lastActive: int)

  /** One row of the `referrals` table; the table is unique on the pair and every row earns 5 credits. */
  datatype Referral = Referral(referrer: UserId, referred: UserId)

  /** An element of a stored JSON array: an object, or a scalar (a `null` element included). */
  datatype Elem = ObjElem(r: Result) | ScalarElem(v: Value)

  /**
   * The `response_data` text of a history row: empty, text that JSON.parse
   * rejects or that does not decode to an array, or an array of elements.
   */
  datatype Payload = Blank | Opaque(text: string) | Items(elems: seq<Elem>)

  /** One row of `search_history`: one search's batch of new results. */
  datatype HistoryRow = HistoryRow(rowId: nat, telegramId: UserId, searchNumber: string, payload: Payload, searchedAt: int)

  datatype Store = Store(
    users: map<UserId, User>,
    referrals: set<Referral>,
    history: seq<HistoryRow>,
    nextRowId: nat)

  /** The balance the search handler reads: a user who is not registered counts as 0. */
  function BalanceOf(s: Store, id: UserId): int {
    if id in s.users then s.users[id].balance else 0
  }

  /** Every registered user's balance is non-negative. */
  predicate BalancesNonNegative(s: Store) {
    forall u :: u in s.users ==> s.users[u].balance >= 0
  }

  /**
   * `s'` differs from `s` at most in user `id`, which keeps every field but the
   * balance and the last-active time; the balance moved by `delta`.
   */
  predicate LedgerMove(s: Store, s': Store, id: UserId, delta: int) {
    && s'.users.Keys == s.users.Keys
    && s'.referrals == s.referrals
    && s'.history == s.history
    && s'.nextRowId == s.nextRowId
    && (forall u :: u in s.users && u != id ==> s'.users[u] == s.users[u])
    && (id in s.users ==> s'.users[id] == s.users[id].(balance := s'.users[id].balance, lastActive := s'.users[id].lastActive))
    && BalanceOf(s', id) == BalanceOf(s, id) + (if id in s.users then delta else 0)
  }

  /**
   * `UPDATE users SET wallet_balance = wallet_balance + amount WHERE telegram_id = id`:
   * the referral bonus, the refund and the admin's added credits. An unknown
   * id matches no row and changes nothing.
   */
  function Credit(s: Store, id: UserId, amount: int): (s': Store)
    ensures LedgerMove(s, s', id, amount)
    ensures id in s.users ==> s'.users[id].lastActive == s.users[id].lastActive
  {
    if id in s.users then s.(users := s.users[id := s.users[id].(balance := s.users[id].balance + amount)])
    else s
  }

  /** Outcome of the check-then-debit step of a search. */
  datatype Debit = Debited(store: Store) | Insufficient(balance: int)

  /**
   * The balance check and the one-credit debit of a search, one atomic step:
   * a balance below 1 (0 for an unregistered user) debits nothing.
   */
  function TryDebit(s: Store, id: UserId): (r: Debit)
    ensures r.Debited? <==> BalanceOf(s, id) >= 1
    ensures r.Insufficient? ==> r.balance == BalanceOf(s, id)
    ensures r.Debited? ==> id in s.users && LedgerMove(s, r.store, id, -1)
    ensures r.Debited? ==> r.store.users[id].lastActive == s.users[id].lastActive
    ensures r.Debited? && BalancesNonNegative(s) ==> BalancesNonNegative(r.store)
  {
    var balance := BalanceOf(s, id);
    if balance < 1 then Insufficient(balance) else Debited(Credit(s, id, -1))
  }

  /** `UPDATE users SET last_active = now WHERE telegram_id = id`. */
  function Touch(s: Store, id: UserId, now: int): (s': Store)
    ensures LedgerMove(s, s', id, 0)
    ensures id in s.users ==> s'.users[id].lastActive == now
  {
    if id in s.users then s.(users := s.users[id := s.users[id].(lastActive := now)]) else s
  }

  /** Credits a referrer has earned: `SUM(credits_earned)` over their referral rows, or 0. */
  function ReferralEarnings(s: Store, id: UserId): (n: nat)
    ensures n % 5 == 0
    ensures n == 0 <==> forall p :: p in s.referrals ==> p.referrer != id
  {
    var mine := set p | p in s.referrals && p.referrer == id;
    assert (exists p :: p in s.referrals && p.referrer == id) ==> |mine| > 0 by {
      if p :| p in s.referrals && p.referrer == id {
        assert p in mine;
      }
    }
    5 * |mine|
  }

  /** One more referral row of a referrer adds 5 to their earnings; nobody else's move. */
  lemma ReferralEarningsAdd(s: Store, s': Store, a: UserId, b: UserId)
    requires s'.referrals == s.referrals + {Referral(a, b)} && Referral(a, b) !in s.referrals
    ensures ReferralEarnings(s', a) == ReferralEarnings(s, a) + 5
    ensures forall u :: u != a ==> ReferralEarnings(s', u) == ReferralEarnings(s, u)
  {
    var mine := set p | p in s.referrals && p.referrer == a;
    var mine' := set p | p in s'.referrals && p.referrer == a;
    assert mine' == mine + {Referral(a, b)};
    forall u | u != a
      ensures ReferralEarnings(s', u) == ReferralEarnings(s, u)
    {
      assert (set p | p in s'.referrals && p.referrer == u) == (set p | p in s.referrals && p.referrer == u);
    }
  }
}

=== FILE: system.dfy ===
/**
 * The bot and the admin panel together, as one sequence of events on the
 * shared tables, and the invariants every event keeps: no balance goes
 * negative, every referral code is its owner's generated code, and no user's
 * history holds the same result id in two rows.
 */
module System {
  import opened Values
  import opened Store
  import opened Registration
  import opened Dedup
  import opened Gateway
  import opened Conversation
  import opened Admin

  /** One thing that can happen to the tables. */
  datatype Event =
    | Start(id: UserId, profile: Profile, code: string, now: int)
    | Message(id: UserId, text: Option<string>, answer: Response, now: int, writable: bool)
    | GiveCredits(id: UserId, credits: Option<int>)
    | FixCredits(id: UserId, amount: int)
    | BanUser(id: UserId, reason: Option<string>, now: int)
    | UnbanUser(id: UserId)
    | RemoveUser(id: UserId)

  ghost predicate Valid(sess: Session) {
    BalancesNonNegative(sess.store) && CodesCanonical(sess.store) && FreshRows(sess.store.history)
  }

  /** The effect of one event on the tables and on the waiting set. */
  function Apply(sess: Session, e: Event): Session {
    match e
    case Start(id, p, code, now) => sess.(store := RegisterUser(sess.store, id, p, code, now).store)
    case Message(id, text, g, now, writable) => OnMessage(sess, id, text, g, now, writable).session
    case GiveCredits(id, credits) => sess.(store := AddCredits(sess.store, id, credits).store)
    case FixCredits(id, amount) => sess.(store := SetCredits(sess.store, id, amount).store)
    case BanUser(id, reason, now) => sess.(store := Ban(sess.store, id, reason, now).store)
    case UnbanUser(id) => sess.(store := Unban(sess.store, id).store)
    case RemoveUser(id) => sess.(store := DeleteUser(sess.store, id).store)
  }

  /** A move of one user's balance keeps every referral code. */
  lemma LedgerMoveKeepsCodes(s: Store, s': Store, id: UserId, delta: int)
    requires LedgerMove(s, s', id, delta) && CodesCanonical(s)
    ensures CodesCanonical(s')
  {
    forall u | u in s'.users
      ensures s'.users[u].referralCode == ReferralCodeFor(u)
    {
      if u == id {
        assert s'.users[u].referralCode == s.users[u].referralCode;
      }
    }
  }

  /** Every event keeps the invariants. */
  lemma ApplyKeepsValid(sess: Session, e: Event)
    requires Valid(sess)
    ensures Valid(Apply(sess, e))
  {
    var s := sess.store;
    match e
    case Start(id, p, code, now) =>
      RegisterPreservesLedger(s, id, p, code, now);
    case Message(id, text, g, now, writable) =>
      var r := OnMessage(sess, id, text, g, now, writable);
      OnMessageKeepsInvariants(sess, id, text, g, now, writable, r);
      var s' := r.session.store;
      forall u | u in s'.users
        ensures s'.users[u].referralCode == ReferralCodeFor(u)
      {
        if u == id {
          assert s'.users[u].referralCode == s.users[u].referralCode;
        }
      }
    case GiveCredits(id, credits) =>
      var r := AddCredits(s, id, credits);
      if r.answer.Done? {
        LedgerMoveKeepsCodes(s, r.store, id, credits.value);
      }
    case FixCredits(id, amount) =>
      var r := SetCredits(s, id, amount);
      if r.answer.Done? {
        LedgerMoveKeepsCodes(s, r.store, id, amount - BalanceOf(s, id));
      }
    case BanUser(id, reason, now) =>
      var s' := Ban(s, id, reason, now).store;
      assert forall u :: u in s'.users ==> s'.users[u].referralCode == s.users[u].referralCode;
    case UnbanUser(id) =>
      var s' := Unban(s, id).store;
      assert forall u :: u in s'.users ==> s'.users[u].referralCode == s.users[u].referralCode;
    case RemoveUser(id) =>
      DeletePreservesInvariants(s, id);
  }

  /** The tables after a sequence of events. */
  function Run(sess: Session, events: seq<Event>): Session
    decreases |events|
  {
    if |events| == 0 then sess else Run(Apply(sess, events[0]), events[1..])
  }

  /** From valid tables, any sequence of events leads to valid tables. */
  lemma {:induction false} RunKeepsValid(sess: Session, events: seq<Event>)
    requires Valid(sess)
    ensures Valid(Run(sess, events))
    decreases |events|
  {
    if |events| > 0 {
      ApplyKeepsValid(sess, events[0]);
      RunKeepsValid(Apply(sess, events[0]), events[1..]);
    }
  }

  /** The tables the bot starts from: empty, and valid. */
  lemma EmptyIsValid(awaiting: set<UserId>)
    ensures Valid(Session(Store(map[], {}, [], 0), awaiting))
  {
    assert FreshRows([]);
  }
}

=== FILE: values.dfy ===
/**
 * JavaScript-flavoured scalar values, as the lookup service returns them and as
 * the bot and the admin panel read them back: truthiness, `String(v)`, decimal
 * numerals and UTF-16 lengths.
 */
module Values {

  datatype Option<+T> = None | Some(value: T)

  /** A scalar JSON value. Nested objects and arrays are not modelled. */
  datatype Value = Null | Bool(b: bool) | Num(n: int) | Str(s: string)

  /** JavaScript truthiness on scalars: `null`, `false`, `0` and `""` are falsy. */
  predicate Truthy(v: Value) {
    match v
    case Null => false
    case Bool(b) => b
    case Num(n) => n != 0
    case Str(s) => s != ""
  }

  /** `v || null`: the value when it is truthy, otherwise null. */
  function OrNull(v: Value): Value {
    if Truthy(v) then v else Null
  }

  /** `s || null` on an optional text field: an absent or empty text is stored as null. */
  function Nullify(s: Option<string>): (r: Option<string>)
    ensures r.Some? <==> s.Some? && s.value != ""
    ensures r.Some? ==> r.value == s.value
  {
    if s.Some? && s.value != "" then s else None
  }

  /** One key/value pair of a result object. */
  datatype Field = Field(key: string, val: Value)

  /**
   * A result object in its key order (the order JSON.parse saw the keys in,
   * and the order JSON.stringify writes them back). Keys are distinct.
   */
  datatype Result = Result(fields: seq<Field>)

  /** `obj[key]`, with an absent key read as null (every reader here applies `|| …`). */
  function Get(r: Result, key: string): Value {
    GetIn(r.fields, key)
  }

  function GetIn(fs: seq<Field>, key: string): Value {
    if |fs| == 0 then Null
    else if fs[0].key == key then fs[0].val
    else GetIn(fs[1..], key)
  }

  function Min(a: int, b: int): int {
    if a <= b then a else b
  }

  /** Decimal digit character. */
  function DigitChar(d: int): char
    requires 0 <= d < 10
  {
    "0123456789"[d]
  }

  predicate IsDigit(c: char) {
    '0' <= c <= '9'
  }

  /** Decimal numeral of a natural number, without leading zeros. */
  function NatText(n: nat): (t: string)
    ensures |t| >= 1
    ensures forall i :: 0 <= i < |t| ==> IsDigit(t[i])
    decreases n
  {
    if n < 10 then [DigitChar(n)] else NatText(n / 10) + [DigitChar(n % 10)]
  }

  /** The numeral JavaScript prints for an integer. */
  function NumText(n: int): string {
    if n < 0 then "-" + NatText(-n) else NatText(n)
  }

  /** `String(v)`, as a template literal `${v}` renders it. */
  function JsString(v: Value): string {
    match v
    case Null => "null"
    case Bool(b) => if b then "true" else "false"
    case Num(n) => NumText(n)
    case Str(s) => s
  }

  /** Number of UTF-16 code units of a character: two for one outside the Basic Multilingual Plane. */
  function Utf16Units(c: char): nat {
    if c as int > 0xFFFF then 2 else 1
  }

  /** JavaScript's `s.length`, which counts UTF-16 code units. */
  function Utf16Length(s: string): (n: nat)
    ensures |s| <= n <= 2 * |s|
  {
    if |s| == 0 then 0 else Utf16Units(s[0]) + Utf16Length(s[1..])
  }

  /**
   * The longest prefix of `s` whose UTF-16 length is at most `units`; what
   * `s.substring(0, units)` returns unless the cut falls inside a surrogate pair.
   */
  function Utf16Prefix(s: string, units: nat): (p: string)
    ensures |p| <= |s| && p == s[..|p|]
    ensures Utf16Length(p) <= units
    ensures |p| < |s| ==> Utf16Length(p) + Utf16Units(s[|p|]) > units
  {
    if |s| == 0 || Utf16Units(s[0]) > units then ""
    else [s[0]] + Utf16Prefix(s[1..], units - Utf16Units(s[0]))
  }

  predicate StartsWith(s: string, prefix: string) {
    |prefix| <= |s| && s[..|prefix|] == prefix
  }

  /** `p` occurs in `s` starting at position `i`. */
  predicate OccursAt(s: string, p: string, i: int) {
    0 <= i && i + |p| <= |s| && s[i..i + |p|] == p
  }

  /** `s.includes(p)`: `p` occurs in `s` as a contiguous piece. */
  predicate Contains(s: string, p: string) {
    exists i :: 0 <= i <= |s| && OccursAt(s, p, i)
  }

  /** Whatever surrounds it, a piece is contained in a text that has it in the middle. */
  lemma ContainsMiddle(a: string, b: string, c: string)
    ensures Contains(a + b + c, b)
  {
    var t := a + b + c;
    assert t[|a|..|a| + |b|] == b;
    assert OccursAt(t, b, |a|);
  }

  /** Containment is transitive: a piece of a piece is a piece. */
  lemma ContainsTrans(a: string, b: string, c: string)
    requires Contains(a, b) && Contains(b, c)
    ensures Contains(a, c)
  {
    var i :| 0 <= i <= |a| && OccursAt(a, b, i);
    var j :| 0 <= j <= |b| && OccursAt(b, c, j);
    assert forall k :: 0 <= k < |c| ==> c[k] == b[j + k] == a[i + j + k];
    assert a[i + j..i + j + |c|] == c;
    assert OccursAt(a, c, i + j);
  }
}
